=== FILE: README.md ===
# Handover approval workflow of agritrace, in Dafny

This project models how agritrace negotiates a custody handover of a produce
batch before it writes the handover to the blockchain ledger:

1. The distributor's form (`DistributorForm.jsx`) submits a proposed handover.
   The backend stores it as a `pending` row of the `farmer_approvals` table.
2. The farmer's component (`FarmerApprovals.jsx`) polls the farmer's pending
   rows. It approves or rejects a row: the backend sets the row's status,
   overwrites its farmer hash (null from this component) and bumps its
   `updated_at`.
3. The distributor's component (`ApprovedBatches.jsx`) polls the approved rows
   that have no ledger hash yet. It writes the handover to the ledger FIRST.
   Only a mined write is followed by the confirm request, which stores the
   transaction hash on the row.

The backend table is an immutable value: `map<int, Record>`, the next
IDENTITY value, and a logical clock that stands in for `GETDATE()`. Each
endpoint is a pure function `(Store, database call succeeds?, request) → (Response, Store)`.
Each client handler is a pure function. It takes the component state and the
outcomes of its awaited calls (the fetch reply, the ledger write). It returns
the ordered list of effects (requests sent, ledger write, callbacks) and the
new component state. The ledger write is an abstract outcome:
`Mined(txHash) | Failed(message)`.

The model follows the code as written, including where it is weaker than one
might expect of the protocol:

- The decision endpoint updates by id with no status guard. A decided row can
  be decided again (`Workflow.ApprovedCanBeRejected`).
- The confirm endpoint overwrites the hash on any row, whatever its status
  (`Workflow.RejectedRowTakesHash`, `Workflow.SecondConfirmOverwrites`).
- Submission has no duplicate check and never answers 409
  (`Workflow.DuplicateSubmissionsBothPending`).
- An unknown id is not a 404. The UPDATE matches nothing and the reply is
  still `success: true`, with the table unchanged.
- Submission validates the four required fields before any database call,
  so a missing field answers 400 even when the database is failing. Likewise,
  an unknown action answers 400 before any database call.
- The `approvalId` in the submit reply is `rowsAffected[0]`, which is always 1.
  It is not the new row's id.
- A quantity or price that `parseFloat` turns into NaN is refused by the
  driver and answers 500; a NULL in a NOT NULL column is refused by the
  server after it has drawn the next IDENTITY value, so ids can have gaps.

Files: `wrappers.dfy` (Option), `js.dfy` (JavaScript truthiness, `||`, `join`, `parseFloat`'s NaN test),
`store.dfy` (table, invariant, the three queries), `api.dfy` (the six
endpoints), `api_facts.dfy` (invariant preservation and listing lemmas),
`client.dfy` (shared client types), `farmer_approvals.dfy`,
`approved_batches.dfy`, `distributor_form.dfy`, and `workflow.dfy` (client
requests applied to the backend, end to end).

## Model

| member | source | states |
|---|---|---|
| ApprovalStore.StatusText | agri_backend/index.js:94 | every status text written to the table or a reply is one of the three values the CHECK constraint admits (the datatype has no other value, so the CHECK never fails) |
| ApprovalStore.Sort | agri_backend/index.js:301 | ORDER BY … DESC: the result is sorted by descending key, is a permutation of its input (same multiset), and keeps a duplicate-free input duplicate-free |
| ApprovalStore.SelectExact | agri_backend/index.js:298-302 | a query returns every matching row exactly once and nothing else, in descending order of its ORDER BY column |
| ApprovalStore.SqlEqEmptyIffSpaces | agri_backend/index.js:330 | under SQL Server's blank-padded `=`, `hash = ''` holds exactly for strings made only of spaces |
| ApprovalsApi.MissingFields | agri_backend/index.js:234-246 | the missing-field list names exactly the falsy fields among batchId, cropName, distributorId and farmerEmail, each once, in that order; it is empty exactly when all four are truthy |
| ApprovalsApi.HandleSubmit | agri_backend/index.js:234-284 | 400 exactly when a required field is falsy, with the store unchanged; otherwise 500 when the database call fails, 500 exactly when `parseFloat` of the quantity or price is NaN (refused by the driver, store unchanged), and 500 exactly when a NOT NULL column would get NULL, which leaves the rows unchanged but consumes the next IDENTITY value; on success exactly one row is added under the next id, with status pending, a null farmer hash, the distributor hash or null when it is falsy, the body's fields, and the other rows unchanged; the reply's approvalId is the affected-row count 1 |
| Js.NoDigitIsNaN | agri_backend/index.js:258-259 | `parseFloat` of a missing text, or of one with no digit at all (empty, blank, words other than `Infinity`), is NaN, so such a quantity or price fails the submission |
| Js.LeadingDigitIsNumber | agri_backend/index.js:258-259 | `parseFloat` of a text that starts with a digit, or a sign and a digit, is a number, so such a quantity or price is accepted |
| ApprovalsApi.Query | agri_backend/index.js:289-310 | a listing never changes the store; it returns the result set when the database call succeeds and a 500 otherwise |
| ApprovalsApi.ParseAction | agri_backend/index.js:381-390 | only `approve` and `reject` are accepted; they map to approved and rejected, and never to pending |
| ApprovalsApi.HandleConfirm | agri_backend/index.js:346-371 | when the database call succeeds it always answers success; it sets the hash (verbatim, even null or '') and bumps `updated_at` on the row with that id only, whatever its status, and changes no other field or row; an unknown id leaves the store unchanged; when the call fails it answers 500 and changes nothing |
| ApprovalsApi.HandleDecide | agri_backend/index.js:377-410 | an unknown action gives 400 before the database is touched; otherwise it sets status, the farmer hash (or null when falsy) and `updated_at` on that id only, with no guard on the current status; other rows are unchanged |
| ApprovalsApi.Handle | agri_backend/index.js:205-439 | when the database call fails no endpoint changes the store or answers 200; every non-500 answer in that case is the missing-field 400 or the invalid-action 400 |
| ApprovalsApi.ToReply | agri_backend/index.js:205-439 | `response.ok` and `success` hold exactly for 200 replies; error replies carry `error`, only the 400 of submit carries `missingFields`, and only listings carry `approvals`; only the decision reply carries `status`, the text of the new status |
| ApprovalsApi.DecideReplyStatus | agri_backend/index.js:390-406 | the decision reply's `status` is 'approved' for approve and 'rejected' for reject |
| ApprovalsFacts.SubmitPreservesValid | agri_backend/index.js:249-273 | the submit endpoint keeps the table invariant, including when a refused INSERT consumes an IDENTITY value |
| ApprovalsFacts.HandlePreservesValid | agri_backend/index.js:82-99 | every endpoint keeps the table invariant: every id lies in 1..nextId-1 (failed inserts leave gaps), each row sits under its own id, and timestamps precede the clock |
| ApprovalsFacts.ReachableValid | agri_backend/index.js:82-99 | every table reachable from the empty one by any request sequence satisfies the invariant |
| ApprovalsFacts.PendingListExact | agri_backend/index.js:298-302 | the pending list for e is exactly the rows with farmer_email = e and status pending, each once, newest created_at first |
| ApprovalsFacts.AwaitingListExact | agri_backend/index.js:326-332 | the awaiting-ledger list for d is exactly d's approved rows whose hash is NULL or '', each once, latest updated_at first; pending and rejected rows never appear |
| ApprovalsFacts.ApprovedListExact | agri_backend/index.js:425-429 | the approved list for e is exactly e's approved rows whatever their hash, each once, newest created_at first |
| ApprovalsFacts.SubmitAddsOne | agri_backend/index.js:259-273 | a successful submit adds one row under a fresh id, grows the table by one, keeps every other row, and is created after every existing row |
| ApprovalsFacts.SubmitHeadsPendingList | agri_backend/index.js:298-302 | the just-submitted row is the first entry of its farmer's pending list |
| ApprovalsFacts.ConfirmLeavesQueue | agri_backend/index.js:355-363 | after confirming a row with a non-blank hash, no entry with that id is in any distributor's awaiting-ledger list |
| ApprovalsFacts.DecideMovesRow | agri_backend/index.js:390-400 | a decision takes the row out of every pending list; an approval puts it in its farmer's approved list, and in its distributor's awaiting list exactly when its hash is NULL or ''; a rejected row is in no awaiting list |
| Client.WithoutId | agri_ui/src/components/ApprovedBatches.jsx:73 | `filter(b => b.id !== id)` keeps exactly the entries with another id |
| Client.WithoutIdRemovesOne | agri_ui/src/components/FarmerApprovals.jsx:56 | in a list with distinct ids, filtering out the id at position i removes exactly that entry and keeps the others in order |
| FarmerApprovals.PollRequest | agri_ui/src/components/FarmerApprovals.jsx:22 | each poll asks for the pending list of the component's farmer email |
| FarmerApprovals.Poll | agri_ui/src/components/FarmerApprovals.jsx:20-35 | a poll replaces the list only when the reply has `success`, then with `approvals` or [] when absent; loading ends on every path |
| FarmerApprovals.PollShowsPendingList | agri_ui/src/components/FarmerApprovals.jsx:20-35 | a poll the backend answers shows exactly the backend's pending list for the farmer (the rows and their order); a poll whose database call fails keeps the list shown before |
| FarmerApprovals.HandleDecision | agri_ui/src/components/FarmerApprovals.jsx:37-98 | approve and reject send exactly one request, `/approve` or `/reject` for the row's id with a null farmer hash; on success exactly that id leaves the list and the approve callback runs only for approve; on failure the list is kept and a non-empty error is set; processingId is null on every path |
| ApprovedBatches.PollRequest | agri_ui/src/components/ApprovedBatches.jsx:26 | the poll asks for the awaiting list of `user?.id` when it is truthy, and of 0 otherwise |
| ApprovedBatches.Poll | agri_ui/src/components/ApprovedBatches.jsx:23-37 | a poll replaces the list only when the reply has `success`; loading ends on every path |
| ApprovedBatches.PollShowsAwaitingList | agri_ui/src/components/ApprovedBatches.jsx:23-37 | a poll the backend answers shows exactly the backend's awaiting-ledger list for `user?.id || 0`; a poll whose database call fails keeps the list shown before |
| ApprovedBatches.SubmitToBlockchain | agri_ui/src/components/ApprovedBatches.jsx:39-86 | without a wallet it only calls connectWallet and changes nothing; otherwise the first effect is the ledger write of the row's own fields, the only request is the confirm, sent exactly when the write was mined and carrying that hash for that id, and processingId ends null |
| ApprovedBatches.AfterMined | agri_ui/src/components/ApprovedBatches.jsx:62-85 | after a mined write, the confirm for the row's id carries the write's hash; success removes that id and notifies with the same hash; failure keeps the list and sets an error |
| ApprovedBatches.LedgerBeforeConfirm | agri_ui/src/components/ApprovedBatches.jsx:51-67 | any request the handler sends comes second, right after the ledger write, and is the confirm with that write's hash |
| ApprovedBatches.LedgerFailureKeepsList | agri_ui/src/components/ApprovedBatches.jsx:80-82 | a failed ledger write sends no request, keeps the list, and sets a non-empty error |
| ApprovedBatches.ConfirmSuccessRemovesBatch | agri_ui/src/components/ApprovedBatches.jsx:71-76 | a successful confirm removes that id from the list, clears the error, and notifies the callback with exactly the ledger hash |
| ApprovedBatches.ConfirmFailureKeepsList | agri_ui/src/components/ApprovedBatches.jsx:77-82 | a confirm that fails or throws keeps the list, sets an error, and notifies nobody |
| DistributorForm.RequestBody | agri_ui/src/components/BlockchainForms/DistributorForm.jsx:66-82 | the body carries distributorId = user.id and a null distributor hash; every other field is copied from the form |
| DistributorForm.TryOutcomeOf | agri_ui/src/components/BlockchainForms/DistributorForm.jsx:84-112 | a non-ok reply shows `error` followed by ` (Missing: a, b)` when missingFields is present; an ok reply without success shows `error` or the fallback; only ok with success is accepted |
| DistributorForm.HandleSubmitAsWritten | agri_ui/src/components/BlockchainForms/DistributorForm.jsx:34-121 | the code as written: a user without an id gets the login error and nothing is sent; otherwise exactly one submission is sent with the form and the user's id; an accepted reply resets every field to "", shows the approval text and calls onSuccess('pending') exactly when it is present; a failure keeps the form, and when the render-time error is empty it ends with the generic "An error occurred: …" text |
| DistributorForm.AsWrittenAgreesOnSuccess | agri_ui/src/components/BlockchainForms/DistributorForm.jsx:34-112 | when the login guard stops the handler or the try block completes, the code as written and the intended handler give the same effects and state |
| DistributorForm.AsWrittenSendsTheSame | agri_ui/src/components/BlockchainForms/DistributorForm.jsx:64-82 | whatever the reply, the code as written and the intended handler send the same requests and leave the same form |
| DistributorForm.CompletedFormHasNoMissingFields | agri_ui/src/components/BlockchainForms/DistributorForm.jsx:165-296 | a form that passes the browser's `required` and `type="number"` validation, sent by a logged-in user, has no missing required field and two numbers for the backend |
| DistributorForm.HandleSubmit | agri_ui/src/components/BlockchainForms/DistributorForm.jsx:34-121 | the login guard sends nothing; otherwise exactly one submission is sent with the form and the user's id; a non-ok reply shows `error` and the missing fields; success resets every field to "" and calls onSuccess('pending') only when present; isSubmitting ends false |
| DistributorForm.DatabaseErrorMessageReplaced | agri_ui/src/components/BlockchainForms/DistributorForm.jsx:86-117 | a first submission of a completed form that the backend answers with a 500 ends, as written, with "An error occurred: Database error"; the intended handler shows "Database error" |
| DistributorForm.DatabaseErrorReply | agri_ui/src/components/BlockchainForms/DistributorForm.jsx:86-117 | on a first submission, any 500 reply ends as written with "An error occurred: Database error" and as intended with "Database error" |
| DistributorForm.FailedCallAnswers500 | agri_backend/index.js:276-283 | a completed form whose INSERT fails in the database (a dropped connection, a server error) gets a 500 "Database error", so the case above is reachable |
| DistributorForm.NetworkErrorHiddenAsWritten | agri_ui/src/components/BlockchainForms/DistributorForm.jsx:113-117 | as written, a network failure while an earlier error is shown ends with an empty error; the intended handler shows one |
| Workflow.ListedIdsDistinct | agri_backend/index.js:83 | rows of any listing have pairwise distinct ids (the primary key) |
| Workflow.FarmerDecisionRemovesOne | agri_ui/src/components/FarmerApprovals.jsx:53-56 | on the list a farmer's poll fetched from the backend, a successful decision removes exactly the decided entry and keeps the others in order |
| Workflow.LedgerConfirmRemovesOne | agri_ui/src/components/ApprovedBatches.jsx:71-73 | on the list a distributor's poll fetched from the backend, a successful confirm removes exactly the submitted entry and keeps the others in order |
| Workflow.NoLedgerWriteNoBookkeeping | agri_ui/src/components/ApprovedBatches.jsx:40-82 | with no wallet or a failed ledger write, the backend's table is left exactly as it was |
| Workflow.FormSubmissionIsPending | agri_ui/src/components/BlockchainForms/DistributorForm.jsx:66-82 | the request of the form as written, for a form the browser lets through, creates one pending row under the next id, with the user's id, a null hash and the form's farmer, listed in that farmer's pending list |
| Workflow.ApprovalQueuesForLedger | agri_ui/src/components/FarmerApprovals.jsx:45-49 | the farmer's approve request puts a null-hash row into its distributor's awaiting-ledger list |
| Workflow.MinedWriteLeavesQueue | agri_ui/src/components/ApprovedBatches.jsx:51-67 | the confirm of a mined write stores that hash on the row, takes it out of every awaiting-ledger list, and leaves an approved row in its farmer's approved list |
| Workflow.UntouchedRowKept | agri_backend/index.js:346-410 | requests that neither decide nor confirm a row (any submissions, listings, or writes to other ids), each with its own database outcome, keep the table valid and that row exactly as it was |
| Workflow.UnconfirmedRowStaysQueued | agri_backend/index.js:326-332 | the awaiting-ledger list is the retry queue: an approved row whose hash is NULL or '' (so in its distributor's list) stays listed through any request sequence, each call succeeding or failing on its own, until its own confirm or decision arrives |
| Workflow.FailedWriteStaysQueued | agri_ui/src/components/ApprovedBatches.jsx:40-82 | pressing submit without a wallet, or with a ledger write that fails, leaves the row in its distributor's awaiting-ledger list |
| Workflow.HandoverLifecycle | agri_backend/index.js:205-439 | submit, approve and mined confirm, driven by the three components with independent fetch outcomes: pending for the farmer, then awaiting for the distributor, then out of that queue and in the farmer's approved list carrying the ledger hash |
| Workflow.ApprovedCanBeRejected | agri_backend/index.js:396-400 | with no status guard, an approved row can afterwards be rejected, and the reply is success |
| Workflow.RejectedRowTakesHash | agri_backend/index.js:359-363 | with no status guard, a rejected row accepts a ledger hash and the reply is success |
| Workflow.SecondConfirmOverwrites | agri_backend/index.js:359-363 | a second confirm replaces the first hash rather than keeping it |
| Workflow.DuplicateSubmissionsBothPending | agri_backend/index.js:264-273 | with no duplicate check, the same proposal submitted twice gives two distinct pending rows for the same batch and distributor, both listed |

## Left out

- Connection pool, CORS, health endpoints, the startup retry loop and the drop-and-recreate of the table at start (agri_backend/index.js:75-78, 112-125): I/O at startup. The model starts from the empty table.
- Registration and login: outside the handover workflow.
- Database failures: `up = false` stands for any failed database call of an endpoint (a dropped connection, a driver or server error, the truncation errors below), all of which land in the endpoint's catch and answer 500. The `!pool` branches themselves are never reached by a served request, because the server only listens after the pool is set (agri_backend/index.js:112-125).
- Which backend each screen talks to: the model gives all three components one shared table. `FarmerApprovals.jsx` fetches the hard-coded `http://localhost:5000`, while `ApprovedBatches.jsx` and `DistributorForm.jsx` use `API_BASE_URL`, which is localhost only in a development build (agri_ui/src/lib/api.js:2-5). In any other build the farmer's screen and the distributor's screens reach different backends, and the cross-component lemmas in `Workflow` (`FarmerDecisionRemovesOne`, `ApprovalQueuesForLedger`, `HandoverLifecycle`) describe only the development build.
- FarmerApprovals.PollRequest: the farmer's email goes into the URL path without `encodeURIComponent` (agri_ui/src/components/FarmerApprovals.jsx:22), and Express decodes the path parameter. The model passes the email through unchanged, so `PollRequest` and `PollShowsPendingList` hold only for emails without `#`, `?`, `/` or `%`. With those characters the path is cut short, fails to route, or decodes to another email.
- Express routing and path parsing: handlers receive the already parsed id. `parseInt` of path parameters is not modelled. The route order that puts `blockchain-confirm` before `/:action` is not modelled either.
- mssql parameter validation: 32-bit `Int` and 64-bit `BigInt` ranges, and NVARCHAR(255) truncation errors. Integers are unbounded here.
- String comparison collation: the model compares emails and hashes with SQL Server's trailing-blank padding. Case-insensitive comparison depends on the database's collation and is not modelled.
- FLOAT columns: `quantityReceived` and `purchasePrice` are stored as opaque text. Only whether `parseFloat` gives NaN is modelled; the parsed value is not.
- ApprovalsApi.HandleSubmit: a text that `parseFloat` reads as ±Infinity (`"Infinity"`, `"1e999"`) is not told apart: `"Infinity"` counts as NaN and `"1e999"` as a number, while the driver and server may refuse both. The white space `parseFloat` skips is limited to the common code points.
- Browser constraint validation of the form (`required`, `type="number"`, `type="email"`) is not a handler step: it is the `Completed` precondition of the workflow lemmas. The email format check is not modelled.
- `handoverDate` conversion (`new Date(d).getTime() / 1000`) is a parameter of the form handler. For the form's `yyyy-mm-dd` value it is the UTC-midnight time in epoch seconds, which the model does not compute. An empty or unparseable date gives NaN, which JSON sends as null.
- Ordering among equal ORDER BY values: SQL leaves it unspecified. The listing lemmas state only a non-increasing order. The logical clock keeps timestamps distinct, while real `DATETIME` values can tie.
- Ledger, wallet and ABI (`useContract.js`, `contractABI.js`): the ledger write is an abstract outcome. A wallet that is connected but has no contract shows up as a failed write.
- `api.js` fetch/JSON wrappers: a fetch is an abstract outcome, either a parsed reply or a thrown message.
- Pure UI (rendering, spinners, Login, dashboard, FarmerForm), the 5-second poll timers, concurrent request races and stale React closures. The one exception is the closure value the form's catch block reads (see Findings).
- The submit reply's `message` texts and the decide reply's message: no component reads them.

## Findings

| source | as written | input that shows it | evidently intended | confidence | as-written member | corrected member |
|---|---|---|---|---|---|---|
| agri_ui/src/components/BlockchainForms/DistributorForm.jsx:113-117 | the catch block's guard `if (!formError)` reads the render-time state, not the message the try block just set, so it overwrites that message; when an error was already shown, a network failure leaves the error text empty | first submission (no error shown) of a completed form whose database call fails (a dropped connection, a server error): the backend answers 500 with error "Database error"; the form ends with "An error occurred: Database error" | keep the try block's message "Database error"; use "An error occurred: …" only when nothing was set | medium, not executed | DistributorForm.HandleSubmitAsWritten | DistributorForm.HandleSubmit |

=== FILE: api.dfy ===
/**
 * The approval endpoints of the backend, each a pure function from the table
 * (and whether the endpoint's database call succeeds) to a response and the
 * new table.
 *
 * The model follows the handlers as written: the decision endpoint updates
 * by id with no status guard, the ledger confirmation overwrites the hash on
 * any status, submission has no duplicate check, and an unknown id is not an
 * error (the UPDATE simply matches no row).
 */
module ApprovalsApi {
  import opened Wrappers
  import Js
  import opened ApprovalStore

  /** The JSON body of a submission; every field may be absent or null. */
  datatype SubmitBody = SubmitBody(
    batchId: Option<string>,
    cropName: Option<string>,
    distributorId: Option<int>,
    distributorName: Option<string>,
    quantityReceived: Option<string>,
    purchasePrice: Option<string>,
    transportDetails: Option<string>,
    warehouseLocation: Option<string>,
    handoverDate: Option<int>,
    farmerEmail: Option<string>,
    distributorTxHash: Option<string>)

  /**
   * Why a statement failed: the database call failed (a lost connection, or a
   * driver or server error; a missing pool, which no served request meets,
   * is one too); a FLOAT parameter that is NaN, which the driver refuses
   * before the statement reaches the server; or a NULL sent to a NOT NULL
   * column, which the server refuses after it has drawn the next IDENTITY
   * value.
   */
  datatype DbFault = CallFailed | InvalidNumber | NullInNotNullColumn

  datatype Response =
    | MissingRequired(missingFields: seq<string>)
    | InvalidAction
    | DatabaseError(fault: DbFault)
    | Submitted(approvalId: int)
    | Approvals(approvals: seq<Record>)
    | Confirmed
    | Decided(status: Status)

  function HttpStatus(r: Response): int {
    match r
    case MissingRequired(_) => 400
    case InvalidAction => 400
    case DatabaseError(_) => 500
    case _ => 200
  }

  /** One request to the approvals API, after routing and path-parameter parsing. */
  datatype Request =
    | Submit(body: SubmitBody)
    | ListPending(farmerEmail: string)
    | ListAwaitingLedger(distributorId: int)
    | ConfirmLedger(approvalId: int, distributorTxHash: Option<string>)
    | Decide(approvalId: int, action: string, farmerTxHash: Option<string>)
    | ListApproved(farmerEmail: string)

  /** The four required submission fields, in the order they are reported. */
  const RequiredFields: seq<string> := ["batchId", "cropName", "distributorId", "farmerEmail"]

  /** Position of a field name in RequiredFields. */
  function Rank(f: string): int {
    if f == "batchId" then 0
    else if f == "cropName" then 1
    else if f == "distributorId" then 2
    else if f == "farmerEmail" then 3
    else 4
  }

  /** The names of the falsy required fields. */
  function MissingFields(b: SubmitBody): (r: seq<string>)
    ensures "batchId" in r <==> !Js.Truthy(b.batchId)
    ensures "cropName" in r <==> !Js.Truthy(b.cropName)
    ensures "distributorId" in r <==> !Js.TruthyInt(b.distributorId)
    ensures "farmerEmail" in r <==> !Js.Truthy(b.farmerEmail)
    ensures forall x :: x in r ==> x in RequiredFields
    ensures forall i, j :: 0 <= i < j < |r| ==> Rank(r[i]) < Rank(r[j])
    ensures r == [] <==> Js.Truthy(b.batchId) && Js.Truthy(b.cropName) && Js.TruthyInt(b.distributorId) && Js.Truthy(b.farmerEmail)
  {
    (if Js.Truthy(b.batchId) then [] else ["batchId"])
    + (if Js.Truthy(b.cropName) then [] else ["cropName"])
    + (if Js.TruthyInt(b.distributorId) then [] else ["distributorId"])
    + (if Js.Truthy(b.farmerEmail) then [] else ["farmerEmail"])
  }

  /** Both FLOAT parameters, `parseFloat(quantityReceived)` and `parseFloat(purchasePrice)`, are numbers. */
  predicate NumbersParse(b: SubmitBody) {
    Js.ParsesAsNumber(b.quantityReceived) && Js.ParsesAsNumber(b.purchasePrice)
  }

  /**
   * Some NOT NULL column of the INSERT would receive NULL. The two FLOAT
   * columns never do: a missing value parses to NaN, refused earlier.
   */
  predicate HasNullColumn(b: SubmitBody) {
    || b.distributorName.None?
    || b.transportDetails.None?
    || b.warehouseLocation.None?
    || b.handoverDate.None?
  }

  /** The row the INSERT creates, with IDENTITY value `id` at time `now`. */
  function NewRow(b: SubmitBody, id: int, now: int): Record
    requires MissingFields(b) == [] && NumbersParse(b) && !HasNullColumn(b)
  {
    Record(id, b.batchId.value, b.cropName.value, b.distributorId.value, b.distributorName.value,
           b.quantityReceived.value, b.purchasePrice.value, b.transportDetails.value,
           b.warehouseLocation.value, b.handoverDate.value, b.farmerEmail.value,
           Pending, Js.OrNull(b.distributorTxHash), None, now, now)
  }

  /** POST /api/approvals/submit */
  function HandleSubmit(s: Store, up: bool, b: SubmitBody): (out: (Response, Store))
    ensures HttpStatus(out.0) == 400 <==> MissingFields(b) != []
    ensures MissingFields(b) != [] ==> out.0.MissingRequired? && out.0.missingFields == MissingFields(b)
    ensures MissingFields(b) == [] && !up ==> out.0 == DatabaseError(CallFailed)
    ensures out.0 == DatabaseError(InvalidNumber) <==> up && MissingFields(b) == [] && !NumbersParse(b)
    ensures out.0 == DatabaseError(NullInNotNullColumn) <==>
      up && MissingFields(b) == [] && NumbersParse(b) && HasNullColumn(b)
    ensures out.0.Submitted? <==> up && MissingFields(b) == [] && NumbersParse(b) && !HasNullColumn(b)
    // the IDENTITY value is drawn exactly when the INSERT reaches the server
    ensures out.1.nextId == if out.0.Submitted? || out.0 == DatabaseError(NullInNotNullColumn) then s.nextId + 1 else s.nextId
    ensures !out.0.Submitted? ==> out.1 == s.(nextId := out.1.nextId)
    ensures out.0.Submitted? ==>
      && out.0.approvalId == 1
      && out.1.rows.Keys == s.rows.Keys + {s.nextId}
      && (forall k :: k in s.rows && k != s.nextId ==> out.1.rows[k] == s.rows[k])
      && var r := out.1.rows[s.nextId];
         && r.id == s.nextId
         && Some(r.batchId) == b.batchId && Some(r.cropName) == b.cropName
         && Some(r.distributorId) == b.distributorId && Some(r.farmerEmail) == b.farmerEmail
         && Some(r.distributorName) == b.distributorName && Some(r.handoverDate) == b.handoverDate
         && Some(r.quantityReceived) == b.quantityReceived && Some(r.purchasePrice) == b.purchasePrice
         && Some(r.transportDetails) == b.transportDetails && Some(r.warehouseLocation) == b.warehouseLocation
         && r.status == Pending
         && r.farmerTxHash == None
         && (Js.Truthy(b.distributorTxHash) ==> r.distributorTxHash == b.distributorTxHash)
         && (!Js.Truthy(b.distributorTxHash) ==> r.distributorTxHash == None)
         && r.createdAt == r.updatedAt == s.clock
  {
    var missing := MissingFields(b);
    if missing != [] then (MissingRequired(missing), s)
    else if !up then (DatabaseError(CallFailed), s)
    else if !NumbersParse(b) then (DatabaseError(InvalidNumber), s)
    else if HasNullColumn(b) then (DatabaseError(NullInNotNullColumn), s.(nextId := s.nextId + 1))
    else
      var row := NewRow(b, s.nextId, s.clock);
      // the reply's approvalId is rowsAffected[0], the count of inserted rows
      (Submitted(1), Store(s.rows[s.nextId := row], s.nextId + 1, s.clock + 1))
  }

  /** A read-only query endpoint: the result set when the database call succeeds, a 500 otherwise. */
  function Query(s: Store, up: bool, q: Query): (out: (Response, Store))
    ensures out.1 == s
    ensures up <==> out.0.Approvals?
    ensures !up ==> out.0 == DatabaseError(CallFailed)
  {
    if !up then (DatabaseError(CallFailed), s) else (Approvals(Select(s, q)), s)
  }

  /** The action path segment, if it is one of the two accepted values. */
  function ParseAction(action: string): (r: Option<Status>)
    ensures r == Some(Approved) <==> action == "approve"
    ensures r == Some(Rejected) <==> action == "reject"
    ensures r != Some(Pending)
  {
    if action == "approve" then Some(Approved)
    else if action == "reject" then Some(Rejected)
    else None
  }

  /** POST /api/approvals/:approvalId/blockchain-confirm */
  function HandleConfirm(s: Store, up: bool, id: int, h: Option<string>): (out: (Response, Store))
    ensures !up ==> out == (DatabaseError(CallFailed), s)
    ensures up ==> out.0 == Confirmed
    ensures out.1.rows.Keys == s.rows.Keys && out.1.nextId == s.nextId
    ensures forall k :: k in s.rows && k != id ==> out.1.rows[k] == s.rows[k]
    ensures id !in s.rows ==> out.1 == s
    ensures up && id in s.rows ==>
      && out.1.rows[id] == s.rows[id].(distributorTxHash := h, updatedAt := s.clock)
      && out.1.clock == s.clock + 1
  {
    if !up then (DatabaseError(CallFailed), s)
    else if id in s.rows then
      var row := s.rows[id].(distributorTxHash := h, updatedAt := s.clock);
      (Confirmed, Store(s.rows[id := row], s.nextId, s.clock + 1))
    else (Confirmed, s)
  }

  /** POST /api/approvals/:approvalId/:action */
  function HandleDecide(s: Store, up: bool, id: int, action: string, h: Option<string>): (out: (Response, Store))
    ensures ParseAction(action).None? ==> out == (InvalidAction, s)
    ensures ParseAction(action).Some? && !up ==> out == (DatabaseError(CallFailed), s)
    ensures ParseAction(action).Some? && up ==> out.0 == Decided(ParseAction(action).value)
    ensures out.1.rows.Keys == s.rows.Keys && out.1.nextId == s.nextId
    ensures forall k :: k in s.rows && k != id ==> out.1.rows[k] == s.rows[k]
    ensures id !in s.rows ==> out.1 == s
    ensures out.0.Decided? && id in s.rows ==>
      && out.1.rows[id] == s.rows[id].(status := out.0.status, farmerTxHash := Js.OrNull(h), updatedAt := s.clock)
      && out.1.clock == s.clock + 1
  {
    match ParseAction(action)
    case None => (InvalidAction, s)
    case Some(st) =>
      if !up then (DatabaseError(CallFailed), s)
      else if id in s.rows then
        var row := s.rows[id].(status := st, farmerTxHash := Js.OrNull(h), updatedAt := s.clock);
        (Decided(st), Store(s.rows[id := row], s.nextId, s.clock + 1))
      else (Decided(st), s)
  }

  /**
   * Dispatches a request to its endpoint. When the database call fails every endpoint
   * leaves the table unchanged and fails with 500, except that the two input
   * checks that run before any database call (missing fields, unknown action)
   * still answer 400.
   */
  function Handle(s: Store, up: bool, req: Request): (out: (Response, Store))
    ensures !up ==> out.1 == s
    ensures !up && HttpStatus(out.0) != 500 ==>
      || (req.Submit? && MissingFields(req.body) != [] && out.0 == MissingRequired(MissingFields(req.body)))
      || (req.Decide? && ParseAction(req.action).None? && out.0 == InvalidAction)
    ensures !up ==> HttpStatus(out.0) != 200
  {
    match req
    case Submit(b) => HandleSubmit(s, up, b)
    case ListPending(e) => Query(s, up, PendingFor(e))
    case ListAwaitingLedger(d) => Query(s, up, AwaitingLedger(d))
    case ConfirmLedger(id, h) => HandleConfirm(s, up, id, h)
    case Decide(id, action, h) => HandleDecide(s, up, id, action, h)
    case ListApproved(e) => Query(s, up, ApprovedFor(e))
  }

  /** The JSON fields of a response that the client components read. */
  datatype Reply = Reply(
    ok: bool,
    success: bool,
    error: Option<string>,
    missingFields: Option<seq<string>>,
    approvals: Option<seq<Record>>,
    status: Option<string>)

  /** Serialises a response to what `response.ok` and `response.json()` expose. */
  function ToReply(r: Response): (rep: Reply)
    ensures rep.ok <==> HttpStatus(r) == 200
    ensures rep.success <==> rep.ok
    ensures rep.error.Some? <==> !rep.ok
    ensures rep.missingFields.Some? <==> r.MissingRequired?
    ensures r.MissingRequired? ==> rep.missingFields == Some(r.missingFields)
    ensures rep.approvals.Some? <==> r.Approvals?
    ensures r.Approvals? ==> rep.approvals == Some(r.approvals)
    ensures rep.status.Some? <==> r.Decided?
    ensures r.Decided? ==> rep.status == Some(StatusText(r.status))
  {
    match r
    case MissingRequired(m) => Reply(false, false, Some("Missing required fields"), Some(m), None, None)
    case InvalidAction => Reply(false, false, Some("Invalid action"), None, None, None)
    case DatabaseError(_) => Reply(false, false, Some("Database error"), None, None, None)
    case Approvals(rows) => Reply(true, true, None, None, Some(rows), None)
    case Decided(st) => Reply(true, true, None, None, None, Some(StatusText(st)))
    case _ => Reply(true, true, None, None, None, None)
  }

  /**
   * The decision reply's `status` is 'approved' for the approve action and
   * 'rejected' for the reject action, and the two texts differ.
   */
  lemma DecideReplyStatus(s: Store, id: int, action: string, h: Option<string>)
    requires action == "approve" || action == "reject"
    ensures ToReply(HandleDecide(s, true, id, action, h).0).status
            == Some(if action == "approve" then "approved" else "rejected")
    ensures StatusText(Approved) != StatusText(Rejected)
  {
  }
}

=== FILE: api_facts.dfy ===
/**
 * Properties of the approval endpoints that relate several calls: the table
 * invariant every endpoint keeps, the exact contents and order of the three
 * listings, and how each write moves a row into or out of them.
 */
module ApprovalsFacts {
  import opened Wrappers
  import Js
  import opened ApprovalStore
  import opened ApprovalsApi

  /** One request, together with whether its database call succeeds. */
  datatype Step = Step(up: bool, req: Request)

  /** The table after a sequence of requests. */
  function Run(s: Store, steps: seq<Step>): Store
    decreases |steps|
  {
    if steps == [] then s
    else Run(Handle(s, steps[0].up, steps[0].req).1, steps[1..])
  }

  lemma SubmitPreservesValid(s: Store, up: bool, b: SubmitBody)
    requires Valid(s)
    ensures Valid(HandleSubmit(s, up, b).1)
  {
    var s' := HandleSubmit(s, up, b).1;
    if HandleSubmit(s, up, b).0.Submitted? {
      assert forall k :: k in s'.rows ==> 1 <= k < s'.nextId;
    }
  }

  lemma HandlePreservesValid(s: Store, up: bool, req: Request)
    requires Valid(s)
    ensures Valid(Handle(s, up, req).1)
  {
    match req
    case Submit(b) => SubmitPreservesValid(s, up, b);
    case ConfirmLedger(id, h) =>
    case Decide(id, action, h) =>
    case _ =>
  }

  /**
   * Every table reachable from the empty one by any sequence of requests
   * satisfies the representation invariant.
   */
  lemma {:induction false} RunPreservesValid(s: Store, steps: seq<Step>)
    requires Valid(s)
    ensures Valid(Run(s, steps))
    decreases |steps|
  {
    if steps != [] {
      HandlePreservesValid(s, steps[0].up, steps[0].req);
      RunPreservesValid(Handle(s, steps[0].up, steps[0].req).1, steps[1..]);
    }
  }

  lemma ReachableValid(steps: seq<Step>)
    ensures Valid(Run(Empty, steps))
  {
    EmptyValid();
    RunPreservesValid(Empty, steps);
  }

  /** The rows of a listing reply, or [] for an error. */
  function Listed(out: (Response, Store)): seq<Record> {
    if out.0.Approvals? then out.0.approvals else []
  }

  /**
   * GET /pending/:farmerEmail returns exactly the pending rows of that
   * farmer, each once, newest `created_at` first.
   */
  lemma PendingListExact(s: Store, e: string)
    requires Valid(s)
    ensures var l := Listed(Handle(s, true, ListPending(e)));
      && (forall x :: x in l ==> x.id in s.rows && s.rows[x.id] == x && SqlEq(x.farmerEmail, e) && x.status == Pending)
      && (forall k :: k in s.rows && SqlEq(s.rows[k].farmerEmail, e) && s.rows[k].status == Pending ==> s.rows[k] in l)
      && (forall i, j :: 0 <= i < j < |l| ==> l[i].createdAt >= l[j].createdAt)
      && NoDup(l)
  {
    SelectExact(s, PendingFor(e));
  }

  /**
   * GET /pending-blockchain/:distributorId returns exactly that distributor's
   * approved rows whose hash is NULL or '', each once, latest `updated_at`
   * first; pending and rejected rows never appear.
   */
  lemma AwaitingListExact(s: Store, d: int)
    requires Valid(s)
    ensures var l := Listed(Handle(s, true, ListAwaitingLedger(d)));
      && (forall x :: x in l ==> x.id in s.rows && s.rows[x.id] == x && x.distributorId == d
                                 && x.status == Approved && HashBlank(x.distributorTxHash))
      && (forall k ::
            (k in s.rows && s.rows[k].distributorId == d && s.rows[k].status == Approved
             && HashBlank(s.rows[k].distributorTxHash)) ==> s.rows[k] in l)
      && (forall i, j :: 0 <= i < j < |l| ==> l[i].updatedAt >= l[j].updatedAt)
      && NoDup(l)
      && (forall x :: x in l ==> x.status != Pending && x.status != Rejected)
  {
    SelectExact(s, AwaitingLedger(d));
  }

  /**
   * GET /approved/:farmerEmail returns exactly the approved rows of that
   * farmer whatever their hash, each once, newest `created_at` first.
   */
  lemma ApprovedListExact(s: Store, e: string)
    requires Valid(s)
    ensures var l := Listed(Handle(s, true, ListApproved(e)));
      && (forall x :: x in l ==> x.id in s.rows && s.rows[x.id] == x && SqlEq(x.farmerEmail, e) && x.status == Approved)
      && (forall k :: k in s.rows && SqlEq(s.rows[k].farmerEmail, e) && s.rows[k].status == Approved ==> s.rows[k] in l)
      && (forall i, j :: 0 <= i < j < |l| ==> l[i].createdAt >= l[j].createdAt)
      && NoDup(l)
  {
    SelectExact(s, ApprovedFor(e));
  }

  /**
   * A successful submission adds exactly one row under a fresh id, leaves
   * every other row as it was, and is created later than every existing row.
   */
  lemma SubmitAddsOne(s: Store, b: SubmitBody)
    requires Valid(s)
    requires HandleSubmit(s, true, b).0.Submitted?
    ensures var s' := HandleSubmit(s, true, b).1;
      && s.nextId !in s.rows
      && s'.rows.Keys == s.rows.Keys + {s.nextId}
      && |s'.rows| == |s.rows| + 1
      && (forall k :: k in s.rows ==> s'.rows[k] == s.rows[k])
      && (forall k :: k in s.rows ==> s.rows[k].createdAt < s'.rows[s.nextId].createdAt)
  {
    var s' := HandleSubmit(s, true, b).1;
    assert s'.rows.Keys == s.rows.Keys + {s.nextId};
  }

  /** A row sorted first: nothing before it has a larger key than a strict maximum. */
  lemma StrictMaxIsFirst(q: Query, l: seq<Record>, x: Record)
    requires SortedDesc(q, l) && x in l
    requires forall y :: y in l && y != x ==> SortKey(q, y) < SortKey(q, x)
    ensures l[0] == x
  {
    var i :| 0 <= i < |l| && l[i] == x;
    if i > 0 {
      assert SortKey(q, l[0]) >= SortKey(q, l[i]);
    }
  }

  /**
   * The submitted row heads its farmer's pending list: the list is ordered
   * by `created_at` descending and the new row is the most recent.
   */
  lemma SubmitHeadsPendingList(s: Store, b: SubmitBody)
    requires Valid(s)
    requires HandleSubmit(s, true, b).0.Submitted?
    ensures var s' := HandleSubmit(s, true, b).1;
      var l := Listed(Handle(s', true, ListPending(b.farmerEmail.value)));
      |l| > 0 && l[0] == s'.rows[s.nextId]
  {
    var s' := HandleSubmit(s, true, b).1;
    var q := PendingFor(b.farmerEmail.value);
    HandlePreservesValid(s, true, Submit(b));
    SubmitAddsOne(s, b);
    SelectExact(s', q);
    var l := Select(s', q);
    var x := s'.rows[s.nextId];
    assert x in l;
    forall y | y in l && y != x
      ensures SortKey(q, y) < SortKey(q, x)
    {
      assert y.id in s.rows;
    }
    StrictMaxIsFirst(q, l, x);
  }

  /**
   * Confirming a row with a hash that is neither NULL nor blank takes it out
   * of every distributor's awaiting-ledger list.
   */
  lemma ConfirmLeavesQueue(s: Store, id: int, h: string, d: int)
    requires Valid(s)
    requires !SqlEq(h, "")
    ensures forall x :: x in Listed(Handle(HandleConfirm(s, true, id, Some(h)).1, true, ListAwaitingLedger(d))) ==> x.id != id
  {
    var s' := HandleConfirm(s, true, id, Some(h)).1;
    HandlePreservesValid(s, true, ConfirmLedger(id, Some(h)));
    AwaitingListExact(s', d);
  }

  /**
   * A decision with a valid action takes the row out of every pending list;
   * an approval puts it in its farmer's approved list, and in its
   * distributor's awaiting-ledger list exactly when its hash is NULL or ''.
   */
  lemma DecideMovesRow(s: Store, id: int, action: string, h: Option<string>)
    requires Valid(s)
    requires id in s.rows
    requires action == "approve" || action == "reject"
    ensures var s' := HandleDecide(s, true, id, action, h).1;
      var r := s'.rows[id];
      && (forall e :: forall x :: x in Listed(Handle(s', true, ListPending(e))) ==> x.id != id)
      && (action == "approve" ==> r in Listed(Handle(s', true, ListApproved(s.rows[id].farmerEmail))))
      && (action == "approve" ==>
            (r in Listed(Handle(s', true, ListAwaitingLedger(r.distributorId))) <==> HashBlank(r.distributorTxHash)))
      && (action == "reject" ==> forall d :: r !in Listed(Handle(s', true, ListAwaitingLedger(d))))
  {
    var s' := HandleDecide(s, true, id, action, h).1;
    HandlePreservesValid(s, true, Decide(id, action, h));
    forall e
      ensures forall x :: x in Listed(Handle(s', true, ListPending(e))) ==> x.id != id
    {
      PendingListExact(s', e);
    }
    var r := s'.rows[id];
    ApprovedListExact(s', s.rows[id].farmerEmail);
    AwaitingListExact(s', r.distributorId);
    forall d
      ensures action == "reject" ==> r !in Listed(Handle(s', true, ListAwaitingLedger(d)))
    {
      AwaitingListExact(s', d);
    }
  }
}

=== FILE: approved_batches.dfy ===
/**
 * The distributor's "approved batches" component: a poll of the rows the
 * farmer approved that still await the ledger, and the submit button, which
 * writes the handover to the ledger FIRST and reports the resulting
 * transaction hash to the backend SECOND.
 */
module ApprovedBatches {
  import opened Wrappers
  import Js
  import opened ApprovalStore
  import opened ApprovalsApi
  import opened Client

  /** The component's state. */
  datatype View = View(
    batches: seq<Record>,
    loading: bool,
    processingId: Option<int>,
    error: Option<string>,
    successMessage: Option<string>)

  const Initial: View := View([], true, None, None, None)

  /** The request each poll sends: the awaiting-ledger list for `user?.id || 0`. */
  function PollRequest(user: Option<User>): (r: Request)
    ensures r.ListAwaitingLedger?
    ensures user.Some? && Js.TruthyInt(user.value.id) ==> r.distributorId == user.value.id.value
    ensures !(user.Some? && Js.TruthyInt(user.value.id)) ==> r.distributorId == 0
  {
    var id := if user.Some? then Js.OrElseInt(user.value.id, 0) else 0;
    ListAwaitingLedger(id)
  }

  /** One poll: the list is replaced only when the reply has `success`; loading ends either way. */
  function Poll(v: View, f: Fetch): (v': View)
    ensures !v'.loading
    ensures f.Replied? && f.reply.success ==> v'.batches == f.reply.approvals.GetOr([])
    ensures !(f.Replied? && f.reply.success) ==> v'.batches == v.batches
    ensures v'.processingId == v.processingId && v'.error == v.error && v'.successMessage == v.successMessage
  {
    match f
    case Replied(rep) =>
      if rep.success then v.(batches := rep.approvals.GetOr([]), loading := false)
      else v.(loading := false)
    case Threw(_) => v.(loading := false)
  }

  /**
   * A poll answered by the backend shows exactly the backend's awaiting-ledger
   * list for the user's id (0 when there is none); a poll whose database
   * call fails keeps the list shown before.
   */
  lemma PollShowsAwaitingList(s: Store, up: bool, user: Option<User>, v: View)
    ensures var v' := Poll(v, Replied(ToReply(Handle(s, up, PollRequest(user)).0)));
      && (up ==> v'.batches == Select(s, AwaitingLedger(PollRequest(user).distributorId)))
      && (!up ==> v'.batches == v.batches)
  {
  }

  /** The ledger write's arguments: the approved row's own fields. */
  function HandoverOf(batch: Record): (a: HandoverArgs)
    ensures a.batchId == batch.batchId && a.cropName == batch.cropName
    ensures a.handoverDate == batch.handoverDate
  {
    HandoverArgs(batch.batchId, batch.cropName, batch.distributorName, batch.quantityReceived,
                 batch.purchasePrice, batch.transportDetails, batch.warehouseLocation, batch.handoverDate)
  }

  function SuccessText(batch: Record, txHash: string): string {
    "\U{2705} Batch \"" + batch.batchId + "\" submitted to blockchain! Transaction: " + txHash
  }

  /**
   * The part of the handler after a mined ledger write with hash `h`: the
   * confirm request for this row's id carrying `h`, then the local update
   * from its reply.
   */
  function AfterMined(v: View, batch: Record, h: string, confirm: Fetch, hasCallback: bool): (out: (seq<Effect>, View))
    ensures |out.0| >= 1 && out.0[0] == Send(ConfirmLedger(batch.id, Some(h)))
    ensures Sent(out.0) == [ConfirmLedger(batch.id, Some(h))]
    ensures forall i :: 1 <= i < |out.0| ==> out.0[i] == TransactionComplete(h)
    ensures TransactionComplete(h) in out.0 <==> confirm.Replied? && confirm.reply.success && hasCallback
    ensures out.1.processingId == None && out.1.loading == v.loading
    ensures confirm.Replied? && confirm.reply.success ==>
      && out.1.batches == WithoutId(v.batches, batch.id)
      && out.1.error == None
      && out.1.successMessage.Some?
    ensures !(confirm.Replied? && confirm.reply.success) ==>
      && out.0 == [Send(ConfirmLedger(batch.id, Some(h)))]
      && out.1.batches == v.batches
      && out.1.error.Some? && out.1.error.value != ""
      && out.1.successMessage == None
  {
    var req := ConfirmLedger(batch.id, Some(h));
    var started := v.(processingId := None, error := None, successMessage := None);
    assert Sent([Send(req)]) == [req] by {
      assert [Send(req)][1..] == [];
    }
    match confirm
    case Threw(m) =>
      ([Send(req)], started.(error := Some(Js.OrElse(m, "Failed to submit to blockchain"))))
    case Replied(rep) =>
      if rep.success then
        var notify := if hasCallback then [TransactionComplete(h)] else [];
        SentAppend([Send(req)], notify);
        SentNone(notify);
        ([Send(req)] + notify,
         started.(batches := WithoutId(v.batches, batch.id), successMessage := Some(SuccessText(batch, h))))
      else
        ([Send(req)], started.(error := Some(Js.OrElse(rep.error, "Failed to confirm blockchain submission"))))
  }

  /**
   * handleSubmitToBlockchain. Without a wallet it only asks for one. Otherwise
   * it writes the handover to the ledger; only a mined write is followed by
   * the confirm request, which carries that write's hash for this row's id.
   */
  function SubmitToBlockchain(v: View, batch: Record, walletConnected: bool, ledger: Ledger,
                              confirm: Fetch, hasCallback: bool): (out: (seq<Effect>, View))
    ensures !walletConnected ==> out == ([ConnectWallet], v)
    ensures walletConnected ==>
      && |out.0| >= 1 && out.0[0] == WriteHandover(HandoverOf(batch))
      && out.1.processingId == None
      && out.1.loading == v.loading
    ensures Sent(out.0) == (if walletConnected && ledger.Mined? then [ConfirmLedger(batch.id, Some(ledger.txHash))] else [])
  {
    if !walletConnected then ([ConnectWallet], v)
    else
      var write := [WriteHandover(HandoverOf(batch))];
      SentNone(write);
      match ledger
      case Failed(m) =>
        (write, v.(processingId := None, error := Some(Js.OrElse(m, "Failed to submit to blockchain")), successMessage := None))
      case Mined(h) =>
        var rest := AfterMined(v, batch, h, confirm, hasCallback);
        SentAppend(write, rest.0);
        (write + rest.0, rest.1)
  }

  /**
   * The ledger write comes first: the only request the handler sends is the
   * confirm, and it comes second, right after the ledger write.
   */
  lemma LedgerBeforeConfirm(v: View, batch: Record, walletConnected: bool, ledger: Ledger, confirm: Fetch, hasCallback: bool)
    ensures var effects := SubmitToBlockchain(v, batch, walletConnected, ledger, confirm, hasCallback).0;
      forall i :: 0 <= i < |effects| && effects[i].Send? ==>
        i == 1 && effects[0] == WriteHandover(HandoverOf(batch)) && effects[1] == Send(ConfirmLedger(batch.id, Some(ledger.txHash)))
  {
    if walletConnected && ledger.Mined? {
      var write := [WriteHandover(HandoverOf(batch))];
      var rest := AfterMined(v, batch, ledger.txHash, confirm, hasCallback);
      assert forall i :: 1 <= i < |write + rest.0| ==> (write + rest.0)[i] == rest.0[i - 1];
    }
  }

  /** A failed ledger write sends nothing to the backend, keeps the list and sets an error. */
  lemma LedgerFailureKeepsList(v: View, batch: Record, ledger: Ledger, confirm: Fetch, hasCallback: bool)
    requires ledger.Failed?
    ensures var out := SubmitToBlockchain(v, batch, true, ledger, confirm, hasCallback);
      && out.0 == [WriteHandover(HandoverOf(batch))]
      && out.1.batches == v.batches
      && out.1.error.Some? && out.1.error.value != ""
      && out.1.successMessage == None
      && out.1.processingId == None
  {
  }

  /**
   * A mined write whose confirm succeeds removes exactly the rows with this
   * id from the local list and reports the write's hash to the callback.
   */
  lemma ConfirmSuccessRemovesBatch(v: View, batch: Record, h: string, confirm: Fetch, hasCallback: bool)
    requires confirm.Replied? && confirm.reply.success
    ensures var out := SubmitToBlockchain(v, batch, true, Mined(h), confirm, hasCallback);
      && out.1.batches == WithoutId(v.batches, batch.id)
      && out.1.error == None
      && out.1.successMessage.Some?
      && out.1.processingId == None
      && (forall x :: TransactionComplete(x) in out.0 <==> x == h && hasCallback)
  {
    var write := [WriteHandover(HandoverOf(batch))];
    var rest := AfterMined(v, batch, h, confirm, hasCallback);
    assert forall e :: e in write + rest.0 <==> e in write || e in rest.0;
  }

  /**
   * A mined write whose confirm fails (an error reply or a thrown fetch)
   * keeps the local list, sets an error, and notifies nobody.
   */
  lemma ConfirmFailureKeepsList(v: View, batch: Record, h: string, confirm: Fetch, hasCallback: bool)
    requires !(confirm.Replied? && confirm.reply.success)
    ensures var out := SubmitToBlockchain(v, batch, true, Mined(h), confirm, hasCallback);
      && out.0 == [WriteHandover(HandoverOf(batch)), Send(ConfirmLedger(batch.id, Some(h)))]
      && out.1.batches == v.batches
      && out.1.error.Some? && out.1.error.value != ""
      && out.1.successMessage == None
      && out.1.processingId == None
  {
  }
}

=== FILE: client.dfy ===
/**
 * What the three client components share: the logged-in user, the outcome
 * of a `fetch` + `response.json()` pair, the abstract ledger write, the
 * effects a handler has outside its own state, and the local list update
 * `list.filter(b => b.id !== id)`.
 */
module Client {
  import opened Wrappers
  import opened ApprovalStore
  import opened ApprovalsApi

  /** The user object of the auth context; only its id is read. */
  datatype User = User(id: Option<int>)

  /** `fetch` then `response.json()`: the parsed reply, or the error thrown with its message. */
  datatype Fetch = Replied(reply: Reply) | Threw(message: Option<string>)

  /** The ledger write `addDistributor(...)`: the mined transaction's hash, or the error it threw. */
  datatype Ledger = Mined(txHash: string) | Failed(message: Option<string>)

  /** The arguments of the ledger write, taken from an approved row. */
  datatype HandoverArgs = HandoverArgs(
    batchId: string,
    cropName: string,
    distributorName: string,
    quantityReceived: string,
    purchasePrice: string,
    transportDetails: string,
    warehouseLocation: string,
    handoverDate: int)

  /** What a handler does beyond updating its own component state, in order. */
  datatype Effect =
    | Send(req: Request)
    | ConnectWallet
    | WriteHandover(args: HandoverArgs)
    | ApprovalComplete(approvalId: int)
    | TransactionComplete(txHash: string)
    | SubmitSuccess(tab: string)

  /** Requests sent by a list of effects, in order. */
  function Sent(effects: seq<Effect>): (r: seq<Request>)
    ensures forall q :: q in r <==> Send(q) in effects
  {
    if effects == [] then []
    else (if effects[0].Send? then [effects[0].req] else []) + Sent(effects[1..])
  }

  lemma {:induction false} SentAppend(a: seq<Effect>, b: seq<Effect>)
    ensures Sent(a + b) == Sent(a) + Sent(b)
    decreases |a|
  {
    if a == [] {
      assert a + b == b;
    } else {
      assert (a + b)[0] == a[0];
      assert (a + b)[1..] == a[1..] + b;
      SentAppend(a[1..], b);
    }
  }

  /** Effects that send nothing contribute no request. */
  lemma {:induction false} SentNone(effects: seq<Effect>)
    requires forall e :: e in effects ==> !e.Send?
    ensures Sent(effects) == []
    decreases |effects|
  {
    if effects != [] {
      SentNone(effects[1..]);
    }
  }

  ghost predicate DistinctIds(l: seq<Record>) {
    forall i, j :: 0 <= i < j < |l| ==> l[i].id != l[j].id
  }

  /** `l.filter(b => b.id !== id)` */
  function WithoutId(l: seq<Record>, id: int): (r: seq<Record>)
    ensures forall x :: x in r <==> x in l && x.id != id
    ensures |r| <= |l|
  {
    if l == [] then []
    else (if l[0].id == id then [] else [l[0]]) + WithoutId(l[1..], id)
  }

  lemma {:induction false} WithoutIdAppend(a: seq<Record>, b: seq<Record>, id: int)
    ensures WithoutId(a + b, id) == WithoutId(a, id) + WithoutId(b, id)
    decreases |a|
  {
    if a == [] {
      assert a + b == b;
    } else {
      assert (a + b)[0] == a[0];
      assert (a + b)[1..] == a[1..] + b;
      WithoutIdAppend(a[1..], b, id);
    }
  }

  lemma {:induction false} WithoutAbsentId(l: seq<Record>, id: int)
    requires forall x :: x in l ==> x.id != id
    ensures WithoutId(l, id) == l
    decreases |l|
  {
    if l != [] {
      WithoutAbsentId(l[1..], id);
    }
  }

  /**
   * In a list with distinct ids, filtering out the id of the element at
   * position i removes exactly that element and keeps the others in order.
   */
  lemma {:induction false} WithoutIdRemovesOne(l: seq<Record>, i: int)
    requires 0 <= i < |l|
    requires DistinctIds(l)
    ensures WithoutId(l, l[i].id) == l[..i] + l[i + 1..]
    decreases i
  {
    var id := l[i].id;
    if i == 0 {
      forall x | x in l[1..]
        ensures x.id != id
      {
        var k :| 0 <= k < |l| - 1 && l[1..][k] == x;
        assert x == l[k + 1];
      }
      WithoutAbsentId(l[1..], id);
    } else {
      var tail := l[1..];
      assert DistinctIds(tail) by {
        forall a, b | 0 <= a < b < |tail|
          ensures tail[a].id != tail[b].id
        {
          assert tail[a] == l[a + 1] && tail[b] == l[b + 1];
        }
      }
      assert tail[i - 1] == l[i];
      WithoutIdRemovesOne(tail, i - 1);
      assert l[0].id != id;
      assert l[..i] == [l[0]] + tail[..i - 1];
      assert l[i + 1..] == tail[i..];
    }
  }
}

=== FILE: distributor_form.dfy ===
/**
 * The distributor's submission form. It sends the proposed handover to the
 * backend for the farmer's approval; no ledger write happens here.
 *
 * The catch block as written guards its message with `if (!formError)`, but
 * `formError` there is the value of the render that created the handler,
 * not the message the try block just set. `HandleSubmitAsWritten` models
 * that; `HandleSubmit` is the evidently intended behaviour, in which the
 * message set by the try block is kept.
 */
module DistributorForm {
  import opened Wrappers
  import Js
  import opened ApprovalStore
  import opened ApprovalsApi
  import opened Client

  /** The controlled inputs of the form; every one is a string. */
  datatype Form = Form(
    batchId: string,
    cropName: string,
    distributorName: string,
    quantityReceived: string,
    purchasePrice: string,
    transportDetails: string,
    warehouseLocation: string,
    handoverDate: string,
    farmerEmail: string)

  const BlankForm: Form := Form("", "", "", "", "", "", "", "", "")

  /** The component's state. */
  datatype View = View(form: Form, txHash: string, approvalMessage: string, formError: string, isSubmitting: bool)

  const LoginRequired: string :=
    "\U{274C} You must be logged in as a Distributor to submit a batch. Please log in first."

  const SendFailed: string := "Failed to send for approval"

  /** The logged-in guard `!user || !user.id`. */
  predicate LoggedIn(user: Option<User>) {
    user.Some? && Js.TruthyInt(user.value.id)
  }

  /**
   * The submission body: the form's fields, the user's id as distributorId,
   * and a null distributor hash. `handoverSeconds` is the result of
   * `new Date(handoverDate).getTime() / 1000`, null when the date is invalid.
   */
  function RequestBody(form: Form, userId: int, handoverSeconds: Option<int>): (b: SubmitBody)
    ensures b.distributorId == Some(userId) && b.distributorTxHash == None
    ensures b.batchId == Some(form.batchId) && b.cropName == Some(form.cropName)
    ensures b.farmerEmail == Some(form.farmerEmail) && b.distributorName == Some(form.distributorName)
    ensures b.quantityReceived == Some(form.quantityReceived) && b.purchasePrice == Some(form.purchasePrice)
    ensures b.transportDetails == Some(form.transportDetails) && b.warehouseLocation == Some(form.warehouseLocation)
    ensures b.handoverDate == handoverSeconds
  {
    SubmitBody(Some(form.batchId), Some(form.cropName), Some(userId), Some(form.distributorName),
               Some(form.quantityReceived), Some(form.purchasePrice), Some(form.transportDetails),
               Some(form.warehouseLocation), handoverSeconds, Some(form.farmerEmail), None)
  }

  /** ` (Missing: a, b)` when the reply lists missing fields, else nothing. */
  function MissingSuffix(m: Option<seq<string>>): string {
    match m
    case Some(names) => " (Missing: " + Js.Join(names, ", ") + ")"
    case None => ""
  }

  /** How the try block ended. */
  datatype TryOutcome =
    | Accepted
    | Raised(shown: Option<string>, message: Option<string>)  // the message set in the try, and the thrown error's

  function TryOutcomeOf(f: Fetch): (t: TryOutcome)
    ensures t.Accepted? <==> f.Replied? && f.reply.ok && f.reply.success
    ensures f.Threw? ==> t == Raised(None, f.message)
    ensures f.Replied? && !f.reply.ok ==>
      t == Raised(Some(Js.Text(f.reply.error) + MissingSuffix(f.reply.missingFields)), Some(Js.OrElse(f.reply.error, SendFailed)))
    ensures f.Replied? && f.reply.ok && !f.reply.success ==>
      t == Raised(Some(Js.OrElse(f.reply.error, SendFailed)), Some(Js.OrElse(f.reply.error, SendFailed)))
  {
    match f
    case Threw(m) => Raised(None, m)
    case Replied(rep) =>
      if !rep.ok then
        Raised(Some(Js.Text(rep.error) + MissingSuffix(rep.missingFields)), Some(Js.OrElse(rep.error, SendFailed)))
      else if rep.success then Accepted
      else Raised(Some(Js.OrElse(rep.error, SendFailed)), Some(Js.OrElse(rep.error, SendFailed)))
  }

  /**
   * The error shown after a raised try block, as written: the catch sets
   * 'An error occurred: ' + message whenever the RENDER-TIME formError is
   * empty, and otherwise the last value set is whatever the try set
   * (or the '' of the reset when the try set nothing).
   */
  function ErrorAsWritten(rendered: string, t: TryOutcome): string
    requires t.Raised?
  {
    if rendered == "" then "An error occurred: " + Js.Text(t.message)
    else t.shown.GetOr("")
  }

  /** The intended error: the try block's message if it set one, else the thrown error's. */
  function ErrorIntended(t: TryOutcome): (e: string)
    requires t.Raised?
    ensures t.shown.Some? ==> e == t.shown.value
    ensures t.shown.None? ==> e == "An error occurred: " + Js.Text(t.message)
  {
    match t.shown
    case Some(m) => m
    case None => "An error occurred: " + Js.Text(t.message)
  }

  function ApprovalText(form: Form): string {
    "\U{2705} Submission sent to farmer (" + form.farmerEmail
      + ") for approval. Farmer will perform the blockchain transaction when they approve."
  }

  /** The state after the submission request, given the error text the catch block leaves. */
  function Settle(v: View, req: Request, f: Fetch, hasOnSuccess: bool, errorText: string): (out: (seq<Effect>, View))
  {
    var started := v.(txHash := "", approvalMessage := "", formError := "", isSubmitting := false);
    if TryOutcomeOf(f).Accepted? then
      ([Send(req)] + (if hasOnSuccess then [SubmitSuccess("pending")] else []),
       started.(form := BlankForm, approvalMessage := ApprovalText(v.form)))
    else
      ([Send(req)], started.(formError := errorText))
  }

  /**
   * handleSubmit as written; `v.formError` is the value the catch block's
   * guard reads. Apart from the error text it behaves as the intended
   * handler below: the login guard, one submission, and on an accepted reply
   * the reset of the form and `onSuccess('pending')`.
   */
  function HandleSubmitAsWritten(v: View, user: Option<User>, handoverSeconds: Option<int>, f: Fetch, hasOnSuccess: bool): (out: (seq<Effect>, View))
    ensures !LoggedIn(user) ==> out == ([], v.(formError := LoginRequired))
    ensures LoggedIn(user) ==>
      && |out.0| >= 1
      && out.0[0] == Send(Submit(RequestBody(v.form, user.value.id.value, handoverSeconds)))
      && Sent(out.0) == [Submit(RequestBody(v.form, user.value.id.value, handoverSeconds))]
      && !out.1.isSubmitting
      && out.1.txHash == ""
    ensures LoggedIn(user) && TryOutcomeOf(f).Accepted? ==>
      && out.1.form == BlankForm
      && out.1.formError == ""
      && out.1.approvalMessage == ApprovalText(v.form)
      && (SubmitSuccess("pending") in out.0 <==> hasOnSuccess)
    ensures LoggedIn(user) && !TryOutcomeOf(f).Accepted? ==> out.1.form == v.form
    ensures LoggedIn(user) && v.formError == "" && !TryOutcomeOf(f).Accepted? ==>
      out.1.formError == "An error occurred: " + Js.Text(TryOutcomeOf(f).message)
    // with an earlier error shown, the guard skips the catch's message: the try block's text stays
    ensures LoggedIn(user) && v.formError != "" && f.Replied? && !f.reply.ok ==>
      out.1.formError == Js.Text(f.reply.error) + MissingSuffix(f.reply.missingFields)
    ensures LoggedIn(user) && v.formError != "" && f.Replied? && f.reply.ok && !f.reply.success ==>
      out.1.formError == Js.OrElse(f.reply.error, SendFailed)
    ensures LoggedIn(user) && v.formError != "" && f.Threw? ==> out.1.formError == ""
    ensures SubmitSuccess("pending") in out.0 ==> LoggedIn(user) && f.Replied? && f.reply.success
  {
    if !LoggedIn(user) then ([], v.(formError := LoginRequired))
    else
      var req := Submit(RequestBody(v.form, user.value.id.value, handoverSeconds));
      var t := TryOutcomeOf(f);
      var notify: seq<Effect> := if hasOnSuccess then [SubmitSuccess("pending")] else [];
      SentAppend([Send(req)], notify);
      SentNone(notify);
      assert Sent([Send(req)]) == [req] by {
        assert [Send(req)][1..] == [];
      }
      Settle(v, req, f, hasOnSuccess, if t.Raised? then ErrorAsWritten(v.formError, t) else "")
  }

  /**
   * handleSubmit with the catch block keeping the message the try block set.
   * A user without an id is stopped before any request; otherwise exactly
   * one submission is sent, carrying the form and the user's id.
   */
  function HandleSubmit(v: View, user: Option<User>, handoverSeconds: Option<int>, f: Fetch, hasOnSuccess: bool): (out: (seq<Effect>, View))
    ensures !LoggedIn(user) ==> out == ([], v.(formError := LoginRequired))
    ensures LoggedIn(user) ==>
      && |out.0| >= 1
      && out.0[0] == Send(Submit(RequestBody(v.form, user.value.id.value, handoverSeconds)))
      && Sent(out.0) == [Submit(RequestBody(v.form, user.value.id.value, handoverSeconds))]
      && !out.1.isSubmitting
      && out.1.txHash == ""
    ensures LoggedIn(user) && f.Replied? && !f.reply.ok ==>
      && out.1.formError == Js.Text(f.reply.error) + MissingSuffix(f.reply.missingFields)
      && out.1.form == v.form
    ensures LoggedIn(user) && f.Threw? ==>
      out.1.formError == "An error occurred: " + Js.Text(f.message) && out.1.form == v.form
    ensures LoggedIn(user) && f.Replied? && f.reply.ok && f.reply.success ==>
      && out.1.form == BlankForm
      && out.1.formError == ""
      && (SubmitSuccess("pending") in out.0 <==> hasOnSuccess)
    ensures SubmitSuccess("pending") in out.0 ==> LoggedIn(user) && f.Replied? && f.reply.success
  {
    if !LoggedIn(user) then ([], v.(formError := LoginRequired))
    else
      var req := Submit(RequestBody(v.form, user.value.id.value, handoverSeconds));
      var t := TryOutcomeOf(f);
      var notify: seq<Effect> := if hasOnSuccess then [SubmitSuccess("pending")] else [];
      SentAppend([Send(req)], notify);
      SentNone(notify);
      assert Sent([Send(req)]) == [req] by {
        assert [Send(req)][1..] == [];
      }
      Settle(v, req, f, hasOnSuccess, if t.Raised? then ErrorIntended(t) else "")
  }

  /**
   * The two handlers differ only in the error text: whenever the try block
   * completes, they end in the same state with the same effects.
   */
  lemma AsWrittenAgreesOnSuccess(v: View, user: Option<User>, hs: Option<int>, f: Fetch, hasOnSuccess: bool)
    requires !LoggedIn(user) || TryOutcomeOf(f).Accepted?
    ensures HandleSubmitAsWritten(v, user, hs, f, hasOnSuccess) == HandleSubmit(v, user, hs, f, hasOnSuccess)
  {
  }

  /** Whatever the reply, the two handlers send the same requests and keep the same form. */
  lemma AsWrittenSendsTheSame(v: View, user: Option<User>, hs: Option<int>, f: Fetch, hasOnSuccess: bool)
    ensures Sent(HandleSubmitAsWritten(v, user, hs, f, hasOnSuccess).0) == Sent(HandleSubmit(v, user, hs, f, hasOnSuccess).0)
    ensures HandleSubmitAsWritten(v, user, hs, f, hasOnSuccess).1.form == HandleSubmit(v, user, hs, f, hasOnSuccess).1.form
  {
  }

  /**
   * The browser's constraint validation before `onSubmit` fires: every input
   * is `required`, and the two `type="number"` inputs hold a number.
   */
  predicate Completed(form: Form) {
    && form.batchId != "" && form.cropName != "" && form.farmerEmail != ""
    && form.distributorName != "" && form.transportDetails != ""
    && form.warehouseLocation != "" && form.handoverDate != ""
    && Js.ParsesAsNumber(Some(form.quantityReceived)) && Js.ParsesAsNumber(Some(form.purchasePrice))
  }

  /**
   * A completed form, sent by a logged-in user, passes the backend's
   * required-field check; so the missing-fields 400 never reaches this form.
   */
  lemma CompletedFormHasNoMissingFields(form: Form, userId: int, hs: Option<int>)
    requires Completed(form) && userId != 0
    ensures MissingFields(RequestBody(form, userId, hs)) == []
    ensures NumbersParse(RequestBody(form, userId, hs))
  {
  }

  /**
   * The discrepancy: on a first submission (nothing shown yet) of a completed
   * form that the backend answers with a 500 (a failed database call, or a refused
   * statement), the code as written replaces the try block's
   * "Database error" with "An error occurred: Database error"; the intended
   * handler keeps it.
   */
  lemma DatabaseErrorMessageReplaced(v: View, user: Option<User>, hs: Option<int>, s: Store, up: bool, hasOnSuccess: bool)
    requires LoggedIn(user) && Completed(v.form) && v.formError == ""
    requires HttpStatus(Handle(s, up, Submit(RequestBody(v.form, user.value.id.value, hs))).0) == 500
    ensures var f := Replied(ToReply(Handle(s, up, Submit(RequestBody(v.form, user.value.id.value, hs))).0));
      && HandleSubmitAsWritten(v, user, hs, f, hasOnSuccess).1.formError == "An error occurred: Database error"
      && HandleSubmit(v, user, hs, f, hasOnSuccess).1.formError == "Database error"
  {
    var r := Handle(s, up, Submit(RequestBody(v.form, user.value.id.value, hs))).0;
    assert r.DatabaseError?;
    DatabaseErrorReply(v, user, hs, r.fault, hasOnSuccess);
  }

  /** The error texts a 500 reply leaves, as written and as intended, on a first submission. */
  lemma DatabaseErrorReply(v: View, user: Option<User>, hs: Option<int>, fault: DbFault, hasOnSuccess: bool)
    requires LoggedIn(user) && v.formError == ""
    ensures var f := Replied(ToReply(DatabaseError(fault)));
      && HandleSubmitAsWritten(v, user, hs, f, hasOnSuccess).1.formError == "An error occurred: Database error"
      && HandleSubmit(v, user, hs, f, hasOnSuccess).1.formError == "Database error"
  {
    var f := Replied(ToReply(DatabaseError(fault)));
    assert f.reply == Reply(false, false, Some("Database error"), None, None, None);
    assert "Database error" + "" == "Database error";
    assert TryOutcomeOf(f) == Raised(Some("Database error"), Some("Database error"));
  }

  /** One such reply exists: the backend's database call fails while the form is sent. */
  lemma FailedCallAnswers500(v: View, user: Option<User>, hs: Option<int>, s: Store)
    requires LoggedIn(user) && Completed(v.form)
    ensures HttpStatus(Handle(s, false, Submit(RequestBody(v.form, user.value.id.value, hs))).0) == 500
  {
    CompletedFormHasNoMissingFields(v.form, user.value.id.value, hs);
  }

  /**
   * The other face of the same guard: when an earlier error is still shown,
   * a network failure ends with an empty error text.
   */
  lemma NetworkErrorHiddenAsWritten(v: View, user: Option<User>, hs: Option<int>, m: Option<string>, hasOnSuccess: bool)
    requires LoggedIn(user) && v.formError != ""
    ensures HandleSubmitAsWritten(v, user, hs, Threw(m), hasOnSuccess).1.formError == ""
    ensures HandleSubmit(v, user, hs, Threw(m), hasOnSuccess).1.formError != ""
  {
  }
}

=== FILE: farmer_approvals.dfy ===
/**
 * The farmer's pending-approvals component: a poll of the farmer's pending
 * list, and the approve / reject buttons, which update the row's status,
 * farmer hash (null from here) and `updated_at` in the database; the ledger
 * write is left to the distributor.
 */
module FarmerApprovals {
  import opened Wrappers
  import Js
  import opened ApprovalStore
  import opened ApprovalsApi
  import opened Client

  /** The component's state. */
  datatype View = View(
    approvals: seq<Record>,
    loading: bool,
    processingId: Option<int>,
    error: Option<string>,
    successMessage: Option<string>)

  const Initial: View := View([], true, None, None, None)

  /** The request each poll sends. */
  function PollRequest(farmerEmail: string): (r: Request)
    ensures r.ListPending? && r.farmerEmail == farmerEmail
  {
    ListPending(farmerEmail)
  }

  /**
   * One poll: the list is replaced only when the reply has `success`, then
   * by its `approvals` or [] when that is missing; loading ends either way.
   */
  function Poll(v: View, f: Fetch): (v': View)
    ensures !v'.loading
    ensures f.Replied? && f.reply.success ==> v'.approvals == f.reply.approvals.GetOr([])
    ensures !(f.Replied? && f.reply.success) ==> v'.approvals == v.approvals
    ensures v'.processingId == v.processingId && v'.error == v.error && v'.successMessage == v.successMessage
  {
    match f
    case Replied(rep) =>
      if rep.success then v.(approvals := rep.approvals.GetOr([]), loading := false)
      else v.(loading := false)
    case Threw(_) => v.(loading := false)
  }

  /**
   * A poll answered by the backend shows exactly the backend's pending list
   * for the farmer; a poll whose database call fails keeps the list shown before.
   */
  lemma PollShowsPendingList(s: Store, up: bool, e: string, v: View)
    ensures var v' := Poll(v, Replied(ToReply(Handle(s, up, PollRequest(e)).0)));
      && (up ==> v'.approvals == Select(s, PendingFor(e)))
      && (!up ==> v'.approvals == v.approvals)
  {
  }

  datatype Decision = Approve | Reject

  /** The action path segment of each button. */
  function ActionOf(d: Decision): (a: string)
    ensures ParseAction(a) == Some(if d == Approve then Approved else Rejected)
  {
    match d
    case Approve => "approve"
    case Reject => "reject"
  }

  function SuccessText(d: Decision, approval: Record): string {
    match d
    case Approve => "\U{2705} Batch \"" + approval.batchId + "\" approved! Distributor will now perform the blockchain transaction."
    case Reject => "Batch \"" + approval.batchId + "\" rejected."
  }

  function ReplyFallback(d: Decision): string {
    if d == Approve then "Failed to approve" else "Failed to reject"
  }

  function ThrowFallback(d: Decision): string {
    if d == Approve then "Failed to process approval" else "Failed to process rejection"
  }

  /**
   * handleApprove / handleReject: posts the decision for the row's id with a
   * null farmer hash, then updates the local list from the reply.
   */
  function HandleDecision(v: View, approval: Record, d: Decision, f: Fetch, hasCallback: bool): (out: (seq<Effect>, View))
    ensures |out.0| >= 1 && out.0[0] == Send(Decide(approval.id, ActionOf(d), None))
    ensures Sent(out.0) == [Decide(approval.id, ActionOf(d), None)]
    ensures out.1.processingId == None
    ensures out.1.loading == v.loading
    ensures f.Replied? && f.reply.success ==>
      && out.1.approvals == WithoutId(v.approvals, approval.id)
      && out.1.error == None
      && out.1.successMessage.Some?
    ensures ApprovalComplete(approval.id) in out.0 <==> f.Replied? && f.reply.success && d == Approve && hasCallback
    ensures forall i :: 1 <= i < |out.0| ==> out.0[i] == ApprovalComplete(approval.id)
    ensures !(f.Replied? && f.reply.success) ==>
      && out.1.approvals == v.approvals
      && out.1.error.Some? && out.1.error.value != ""
      && out.1.successMessage == None
    ensures f.Replied? && !f.reply.success && Js.Truthy(f.reply.error) ==> out.1.error == f.reply.error
  {
    var req := Decide(approval.id, ActionOf(d), None);
    var started := v.(processingId := None, error := None, successMessage := None);
    match f
    case Replied(rep) =>
      if rep.success then
        var notify := if d == Approve && hasCallback then [ApprovalComplete(approval.id)] else [];
        SentAppend([Send(req)], notify);
        SentNone(notify);
        assert Sent([Send(req)]) == [req] by {
          assert [Send(req)][1..] == [];
        }
        ([Send(req)] + notify,
         started.(approvals := WithoutId(v.approvals, approval.id), successMessage := Some(SuccessText(d, approval))))
      else
        ([Send(req)], started.(error := Some(Js.OrElse(rep.error, ReplyFallback(d)))))
    case Threw(m) =>
      ([Send(req)], started.(error := Some(Js.OrElse(m, ThrowFallback(d)))))
  }
}

=== FILE: js.dfy ===
/**
 * The few JavaScript value conventions the handlers rely on: truthiness of
 * optional strings and numbers, the `x || fallback` idiom, string coercion of
 * `undefined`, `Array.prototype.join`, and when `parseFloat` gives NaN.
 */
module Js {
  import opened Wrappers

  /** A string (or null/undefined) is truthy exactly when it is present and non-empty. */
  predicate Truthy(o: Option<string>) {
    o.Some? && o.value != ""
  }

  /** A number (or null/undefined) is truthy exactly when it is present and non-zero. */
  predicate TruthyInt(o: Option<int>) {
    o.Some? && o.value != 0
  }

  /** `o || null`: keeps a truthy string and turns every falsy one into null. */
  function OrNull(o: Option<string>): (r: Option<string>)
    ensures r.Some? <==> Truthy(o)
    ensures r.Some? ==> r == o
  {
    if Truthy(o) then o else None
  }

  /** `o || fallback` on strings. */
  function OrElse(o: Option<string>, fallback: string): (r: string)
    ensures Truthy(o) ==> r == o.value
    ensures !Truthy(o) ==> r == fallback
  {
    if Truthy(o) then o.value else fallback
  }

  /** `o || fallback` on numbers. */
  function OrElseInt(o: Option<int>, fallback: int): (r: int)
    ensures TruthyInt(o) ==> r == o.value
    ensures !TruthyInt(o) ==> r == fallback
  {
    if TruthyInt(o) then o.value else fallback
  }

  /** String coercion in a template or `+`: a missing value prints as "undefined". */
  function Text(o: Option<string>): (r: string)
    ensures o.Some? ==> r == o.value
    ensures o.None? ==> r == "undefined"
  {
    match o
    case Some(s) => s
    case None => "undefined"
  }

  /** `xs.join(sep)`. */
  function Join(xs: seq<string>, sep: string): (r: string)
    ensures xs == [] ==> r == ""
    ensures |xs| == 1 ==> r == xs[0]
  {
    if xs == [] then ""
    else if |xs| == 1 then xs[0]
    else Join(xs[..|xs| - 1], sep) + sep + xs[|xs| - 1]
  }

  /** The white space `parseFloat` skips before the number (the common code points). */
  predicate IsSpace(c: char) {
    c == ' ' || c == '\t' || c == '\n' || c == '\r' || c == '\U{0B}' || c == '\U{0C}'
    || c == '\U{A0}' || c == '\U{FEFF}' || c == '\U{2028}' || c == '\U{2029}'
  }

  /** `s.trimStart()`: the longest suffix of `s` that does not start with white space. */
  function TrimStart(s: string): (t: string)
    ensures |t| <= |s| && t == s[|s| - |t|..]
    ensures t != [] ==> !IsSpace(t[0])
    ensures forall i :: 0 <= i < |s| - |t| ==> IsSpace(s[i])
  {
    if s != [] && IsSpace(s[0]) then TrimStart(s[1..]) else s
  }

  predicate IsDigit(c: char) {
    '0' <= c <= '9'
  }

  /**
   * `parseFloat(o)` is a number rather than NaN: after the white space and an
   * optional sign comes a digit, or a point followed by a digit. `undefined`
   * and `null` give NaN. (`Infinity` is not accepted here; see the README.)
   */
  predicate ParsesAsNumber(o: Option<string>) {
    o.Some? &&
    var t := TrimStart(o.value);
    var u := if t != [] && (t[0] == '+' || t[0] == '-') then t[1..] else t;
    (|u| > 0 && IsDigit(u[0])) || (|u| > 1 && u[0] == '.' && IsDigit(u[1]))
  }

  /** `parseFloat` gives NaN for a text with no digit at all: empty, blank, or words. */
  lemma NoDigitIsNaN(o: Option<string>)
    requires o.Some? ==> forall i :: 0 <= i < |o.value| ==> !IsDigit(o.value[i])
    ensures !ParsesAsNumber(o)
  {
    if o.Some? {
      var t := TrimStart(o.value);
      assert forall i :: 0 <= i < |t| ==> t[i] == o.value[|o.value| - |t| + i];
    }
  }

  /** `parseFloat` reads a text that starts with a digit, or with a sign and a digit, as a number. */
  lemma LeadingDigitIsNumber(s: string)
    requires |s| > 0 && (IsDigit(s[0]) || (|s| > 1 && (s[0] == '+' || s[0] == '-') && IsDigit(s[1])))
    ensures ParsesAsNumber(Some(s))
  {
    assert !IsSpace(s[0]);
  }
}

=== FILE: store.dfy ===
/**
 * The `farmer_approvals` table: one row per proposed handover, keyed by an
 * IDENTITY(1,1) id, with a logical clock standing in for GETDATE() so that
 * `created_at` and `updated_at` are totally ordered.
 *
 * The three read queries (pending for a farmer, awaiting the ledger for a
 * distributor, approved for a farmer) are a scan over the ids followed by a
 * sort on the ORDER BY column; their lemmas state the exact row set they
 * return and the order they return it in.
 */
module ApprovalStore {
  import opened Wrappers

  /**
   * The status column; its CHECK constraint admits exactly these three
   * values, and the datatype admits no other, so the CHECK never fails.
   */
  datatype Status = Pending | Approved | Rejected

  /** The text stored in the status column. */
  function StatusText(st: Status): (t: string)
    ensures t in {"pending", "approved", "rejected"}
  {
    match st
    case Pending => "pending"
    case Approved => "approved"
    case Rejected => "rejected"
  }

  /**
   * One row. `quantityReceived` and `purchasePrice` are FLOAT columns kept as
   * opaque text; `handoverDate` is the BIGINT epoch-seconds column.
   */
  datatype Record = Record(
    id: int,
    batchId: string,
    cropName: string,
    distributorId: int,
    distributorName: string,
    quantityReceived: string,
    purchasePrice: string,
    transportDetails: string,
    warehouseLocation: string,
    handoverDate: int,
    farmerEmail: string,
    status: Status,
    distributorTxHash: Option<string>,
    farmerTxHash: Option<string>,
    createdAt: int,
    updatedAt: int)

  /** The table, the next IDENTITY value, and the logical clock read by GETDATE(). */
  datatype Store = Store(rows: map<int, Record>, nextId: int, clock: int)

  /** The freshly created, empty table. */
  const Empty: Store := Store(map[], 1, 0)

  /** Every row is stored under its own id. */
  ghost predicate Keyed(rows: map<int, Record>) {
    forall k :: k in rows ==> rows[k].id == k
  }

  /**
   * The representation invariant of every reachable table: every id lies in
   * 1 .. nextId-1 (a failed INSERT can leave a gap), each row sits under its
   * own id, and every timestamp is earlier than the clock.
   */
  ghost predicate Valid(s: Store) {
    && 1 <= s.nextId
    && 0 <= s.clock
    && Keyed(s.rows)
    && (forall k :: k in s.rows ==> 1 <= k < s.nextId)
    && (forall k :: k in s.rows ==> 0 <= s.rows[k].createdAt <= s.rows[k].updatedAt < s.clock)
  }

  lemma EmptyValid()
    ensures Valid(Empty)
    ensures Empty.rows == map[]
  {
  }

  /** Drops trailing blanks, as SQL Server does before comparing strings with `=`. */
  function TrimTrailingSpaces(s: string): (t: string)
    ensures |t| <= |s| && t == s[..|t|]
    ensures t == [] || t[|t| - 1] != ' '
    ensures forall i :: |t| <= i < |s| ==> s[i] == ' '
  {
    if s != [] && s[|s| - 1] == ' ' then TrimTrailingSpaces(s[..|s| - 1]) else s
  }

  /** String equality in a WHERE clause: trailing blanks are not significant. */
  predicate SqlEq(a: string, b: string) {
    TrimTrailingSpaces(a) == TrimTrailingSpaces(b)
  }

  /** `hash IS NULL OR hash = ''`. */
  predicate HashBlank(h: Option<string>) {
    h.None? || SqlEq(h.value, "")
  }

  lemma SqlEqEmptyIffSpaces(a: string)
    ensures SqlEq(a, "") <==> forall i :: 0 <= i < |a| ==> a[i] == ' '
  {
  }

  /** The three read queries of the approval workflow. */
  datatype Query =
    | PendingFor(farmerEmail: string)
    | AwaitingLedger(distributorId: int)
    | ApprovedFor(approverEmail: string)

  /** The WHERE clause of each query. */
  predicate Matches(q: Query, r: Record) {
    match q
    case PendingFor(e) => SqlEq(r.farmerEmail, e) && r.status == Pending
    case AwaitingLedger(d) => r.distributorId == d && r.status == Approved && HashBlank(r.distributorTxHash)
    case ApprovedFor(e) => SqlEq(r.farmerEmail, e) && r.status == Approved
  }

  /** The ORDER BY column of each query (always DESC). */
  function SortKey(q: Query, r: Record): int {
    if q.AwaitingLedger? then r.updatedAt else r.createdAt
  }

  ghost predicate SortedDesc(q: Query, s: seq<Record>) {
    forall i, j :: 0 <= i < j < |s| ==> SortKey(q, s[i]) >= SortKey(q, s[j])
  }

  ghost predicate NoDup(s: seq<Record>) {
    forall i, j :: 0 <= i < j < |s| ==> s[i] != s[j]
  }

  /** The rows with ids 1..n that satisfy the WHERE clause, in id order. */
  function Scan(rows: map<int, Record>, q: Query, n: int): (r: seq<Record>)
    decreases n
  {
    if n <= 0 then []
    else Scan(rows, q, n - 1) + (if n in rows && Matches(q, rows[n]) then [rows[n]] else [])
  }

  /** Everything a scan returns is a matching row, stored under its own id, within 1..n. */
  lemma {:induction false} ScanSound(rows: map<int, Record>, q: Query, n: int)
    requires Keyed(rows)
    ensures forall x :: x in Scan(rows, q, n) ==> x.id in rows && rows[x.id] == x && 1 <= x.id <= n && Matches(q, x)
    decreases n
  {
    if n > 0 {
      ScanSound(rows, q, n - 1);
    }
  }

  /** A scan up to n finds every matching row whose id is within 1..n. */
  lemma {:induction false} ScanComplete(rows: map<int, Record>, q: Query, n: int)
    ensures forall k :: k in rows && 1 <= k <= n && Matches(q, rows[k]) ==> rows[k] in Scan(rows, q, n)
    decreases n
  {
    if n > 0 {
      ScanComplete(rows, q, n - 1);
    }
  }

  /** A scan lists rows in strictly increasing id order. */
  lemma {:induction false} ScanIncreasing(rows: map<int, Record>, q: Query, n: int)
    requires Keyed(rows)
    ensures forall i, j :: 0 <= i < j < |Scan(rows, q, n)| ==> Scan(rows, q, n)[i].id < Scan(rows, q, n)[j].id
    decreases n
  {
    if n > 0 {
      ScanIncreasing(rows, q, n - 1);
      ScanSound(rows, q, n - 1);
      var pre := Scan(rows, q, n - 1);
      var r := Scan(rows, q, n);
      forall i, j | 0 <= i < j < |r|
        ensures r[i].id < r[j].id
      {
        assert r[i] == pre[i];
        if j < |pre| {
          assert r[j] == pre[j];
        } else {
          assert r[i] in pre;
        }
      }
    }
  }

  /** A key that beats every element may be put in front of a sorted list. */
  lemma ConsSorted(q: Query, x: Record, s: seq<Record>)
    requires SortedDesc(q, s)
    requires forall y :: y in s ==> SortKey(q, x) >= SortKey(q, y)
    ensures SortedDesc(q, [x] + s)
  {
    forall i, j | 0 <= i < j < |[x] + s|
      ensures SortKey(q, ([x] + s)[i]) >= SortKey(q, ([x] + s)[j])
    {
      assert ([x] + s)[j] == s[j - 1];
      if i > 0 {
        assert ([x] + s)[i] == s[i - 1];
      }
    }
  }

  /** A new element may be put in front of a duplicate-free list. */
  lemma ConsNoDup(x: Record, s: seq<Record>)
    ensures NoDup(s) && x !in s ==> NoDup([x] + s)
  {
    forall i, j | NoDup(s) && x !in s && 0 <= i < j < |[x] + s|
      ensures ([x] + s)[i] != ([x] + s)[j]
    {
      assert ([x] + s)[j] == s[j - 1];
      if i > 0 {
        assert ([x] + s)[i] == s[i - 1];
      }
    }
  }

  /** The tail of a sorted, duplicate-free list is sorted and duplicate-free, and lacks the head. */
  lemma TailFacts(q: Query, s: seq<Record>)
    requires s != []
    ensures SortedDesc(q, s) ==> SortedDesc(q, s[1..])
    ensures NoDup(s) ==> NoDup(s[1..]) && s[0] !in s[1..]
    ensures multiset(s) == multiset{s[0]} + multiset(s[1..])
  {
    assert s == [s[0]] + s[1..];
  }

  /** Elements of a list with a known multiset come from that multiset. */
  lemma MultisetMembers(x: Record, tail: seq<Record>, rest: seq<Record>)
    requires multiset(rest) == multiset(tail) + multiset{x}
    ensures forall y :: y in rest ==> y == x || y in tail
  {
    forall y | y in rest
      ensures y == x || y in tail
    {
      assert y in multiset(rest);
    }
  }

  /** Inserts `x` into a list already sorted by descending key. */
  function Insert(q: Query, x: Record, s: seq<Record>): (r: seq<Record>)
    requires SortedDesc(q, s)
    ensures SortedDesc(q, r)
    ensures multiset(r) == multiset(s) + multiset{x}
    ensures NoDup(s) && x !in s ==> NoDup(r)
  {
    if s == [] || SortKey(q, x) >= SortKey(q, s[0]) then
      ConsSorted(q, x, s);
      ConsNoDup(x, s);
      [x] + s
    else
      var tail := s[1..];
      TailFacts(q, s);
      var rest := Insert(q, x, tail);
      MultisetMembers(x, tail, rest);
      ConsSorted(q, s[0], rest);
      ConsNoDup(s[0], rest);
      [s[0]] + rest
  }

  /** Insertion sort by descending key: ORDER BY <key> DESC. */
  function Sort(q: Query, s: seq<Record>): (r: seq<Record>)
    ensures SortedDesc(q, r)
    ensures multiset(r) == multiset(s)
    ensures NoDup(s) ==> NoDup(r)
  {
    if s == [] then []
    else
      var tail := s[1..];
      assert s == [s[0]] + tail;
      var rest := Sort(q, tail);
      assert s[0] in rest <==> s[0] in tail by {
        assert s[0] in rest <==> s[0] in multiset(rest);
      }
      assert NoDup(s) ==> NoDup(tail);
      Insert(q, s[0], rest)
  }

  /** The result set of a query: a scan of ids 1..nextId-1 sorted on the ORDER BY column. */
  function Select(s: Store, q: Query): seq<Record> {
    Sort(q, Scan(s.rows, q, s.nextId - 1))
  }

  /** Sorting keeps exactly the same elements. */
  lemma SortSameElements(q: Query, s: seq<Record>)
    ensures forall x :: x in Sort(q, s) <==> x in s
  {
    forall x
      ensures x in Sort(q, s) <==> x in s
    {
      assert x in Sort(q, s) <==> x in multiset(Sort(q, s));
    }
  }

  /** The sorted scan of ids 1..n over a keyed table whose ids all lie in 1..n. */
  lemma SortedScanExact(rows: map<int, Record>, q: Query, n: int)
    requires Keyed(rows)
    requires forall k :: k in rows ==> 1 <= k <= n
    ensures forall x :: x in Sort(q, Scan(rows, q, n)) ==> x.id in rows && rows[x.id] == x && Matches(q, x)
    ensures forall k :: k in rows && Matches(q, rows[k]) ==> rows[k] in Sort(q, Scan(rows, q, n))
    ensures NoDup(Sort(q, Scan(rows, q, n)))
  {
    var sc := Scan(rows, q, n);
    ScanSound(rows, q, n);
    ScanComplete(rows, q, n);
    ScanIncreasing(rows, q, n);
    SortSameElements(q, sc);
    assert NoDup(sc) by {
      forall i, j | 0 <= i < j < |sc|
        ensures sc[i] != sc[j]
      {
        assert sc[i].id < sc[j].id;
      }
    }
  }

  /**
   * A query returns every matching row of the table exactly once, and
   * nothing else, in descending order of its ORDER BY column.
   */
  lemma SelectExact(s: Store, q: Query)
    requires Valid(s)
    ensures forall x :: x in Select(s, q) ==> x.id in s.rows && s.rows[x.id] == x && Matches(q, x)
    ensures forall k :: k in s.rows && Matches(q, s.rows[k]) ==> s.rows[k] in Select(s, q)
    ensures SortedDesc(q, Select(s, q))
    ensures NoDup(Select(s, q))
  {
    var n := s.nextId - 1;
    assert Keyed(s.rows);
    assert forall k :: k in s.rows ==> 1 <= k <= n;
    SortedScanExact(s.rows, q, n);
    assert Select(s, q) == Sort(q, Scan(s.rows, q, n));
  }
}

=== FILE: workflow.dfy ===
/**
 * The handover workflow end to end: the requests the three client
 * components send, applied to the backend's table. Also the places where
 * the backend, as written, does not guard the workflow (a decided row can be
 * decided again, any row accepts a ledger hash, submissions may repeat).
 */
module Workflow {
  import opened Wrappers
  import Js
  import opened ApprovalStore
  import opened ApprovalsApi
  import opened ApprovalsFacts
  import opened Client
  import FarmerApprovals
  import ApprovedBatches
  import DistributorForm

  /** Applies, in order, the requests a handler sent. */
  function Apply(s: Store, up: bool, reqs: seq<Request>): Store
    decreases |reqs|
  {
    if reqs == [] then s else Apply(Handle(s, up, reqs[0]).1, up, reqs[1..])
  }

  /** A listing whose rows all come from a valid table has pairwise distinct ids. */
  lemma ListedIdsDistinct(s: Store, q: Query)
    requires Valid(s)
    ensures DistinctIds(Select(s, q))
  {
    SelectExact(s, q);
    var l := Select(s, q);
    forall i, j | 0 <= i < j < |l|
      ensures l[i].id != l[j].id
    {
      assert l[i] != l[j];
    }
  }

  /** The farmer's component after a poll the backend answers. */
  function FarmerPolled(s: Store, e: string, v0: FarmerApprovals.View): FarmerApprovals.View {
    FarmerApprovals.Poll(v0, Replied(ToReply(Handle(s, true, FarmerApprovals.PollRequest(e)).0)))
  }

  /** The distributor's component after a poll the backend answers. */
  function DistributorPolled(s: Store, user: Option<User>, v0: ApprovedBatches.View): ApprovedBatches.View {
    ApprovedBatches.Poll(v0, Replied(ToReply(Handle(s, true, ApprovedBatches.PollRequest(user)).0)))
  }

  /**
   * A successful decision on a row of the list the farmer's poll fetched
   * removes exactly that row from the list shown; the others keep their
   * order.
   */
  lemma FarmerDecisionRemovesOne(s: Store, e: string, v0: FarmerApprovals.View, i: int,
                                 d: FarmerApprovals.Decision, f: Fetch, cb: bool)
    requires Valid(s)
    requires 0 <= i < |FarmerPolled(s, e, v0).approvals|
    requires f.Replied? && f.reply.success
    ensures var v := FarmerPolled(s, e, v0);
      FarmerApprovals.HandleDecision(v, v.approvals[i], d, f, cb).1.approvals
        == v.approvals[..i] + v.approvals[i + 1..]
  {
    var v := FarmerPolled(s, e, v0);
    FarmerApprovals.PollShowsPendingList(s, true, e, v0);
    ListedIdsDistinct(s, PendingFor(e));
    WithoutIdRemovesOne(v.approvals, i);
  }

  /**
   * A confirmed ledger write on a row of the list the distributor's poll
   * fetched removes exactly that row from the list shown; the others keep
   * their order.
   */
  lemma LedgerConfirmRemovesOne(s: Store, user: Option<User>, v0: ApprovedBatches.View, i: int,
                                h: string, f: Fetch, cb: bool)
    requires Valid(s)
    requires 0 <= i < |DistributorPolled(s, user, v0).batches|
    requires f.Replied? && f.reply.success
    ensures var v := DistributorPolled(s, user, v0);
      ApprovedBatches.SubmitToBlockchain(v, v.batches[i], true, Mined(h), f, cb).1.batches
        == v.batches[..i] + v.batches[i + 1..]
  {
    var v := DistributorPolled(s, user, v0);
    ApprovedBatches.PollShowsAwaitingList(s, true, user, v0);
    ListedIdsDistinct(s, AwaitingLedger(ApprovedBatches.PollRequest(user).distributorId));
    ApprovedBatches.ConfirmSuccessRemovesBatch(v, v.batches[i], h, f, cb);
    WithoutIdRemovesOne(v.batches, i);
  }

  /**
   * Whatever the wallet state and the confirm reply, a failed or missing
   * ledger write leaves the backend's table exactly as it was.
   */
  lemma NoLedgerWriteNoBookkeeping(s: Store, up: bool, v: ApprovedBatches.View, batch: Record,
                                   wallet: bool, ledger: Ledger, f: Fetch, cb: bool)
    requires !wallet || ledger.Failed?
    ensures Apply(s, up, Sent(ApprovedBatches.SubmitToBlockchain(v, batch, wallet, ledger, f, cb).0)) == s
  {
  }

  lemma ApplyOne(s: Store, up: bool, req: Request)
    ensures Apply(s, up, [req]) == Handle(s, up, req).1
  {
    assert [req][1..] == [];
  }

  /** The table after the distributor's form, as written, submits `fv.form` as `user`. */
  function SubmitVia(s: Store, fv: DistributorForm.View, user: User, hs: Option<int>, f: Fetch): Store {
    Apply(s, true, Sent(DistributorForm.HandleSubmitAsWritten(fv, Some(user), hs, f, false).0))
  }

  /** The table after the farmer presses "approve" on row `id`. */
  function ApproveVia(s: Store, id: int, av: FarmerApprovals.View, f: Fetch): Store
    requires id in s.rows
  {
    Apply(s, true, Sent(FarmerApprovals.HandleDecision(av, s.rows[id], FarmerApprovals.Approve, f, false).0))
  }

  /** The table after the distributor's ledger write of row `id` is mined with hash `h`. */
  function ConfirmVia(s: Store, id: int, bv: ApprovedBatches.View, h: string, f: Fetch): Store
    requires id in s.rows
  {
    Apply(s, true, Sent(ApprovedBatches.SubmitToBlockchain(bv, s.rows[id], true, Mined(h), f, false).0))
  }

  /**
   * The form's submission, for a logged-in user and a form the browser's
   * validation lets through with a valid date, creates one pending row under the next id carrying
   * the user's id, a null hash, and the form's farmer, listed for that farmer.
   */
  lemma FormSubmissionIsPending(s: Store, fv: DistributorForm.View, user: User, hs: Option<int>, f: Fetch)
    requires Valid(s)
    requires Js.TruthyInt(user.id)
    requires DistributorForm.Completed(fv.form) && hs.Some?
    ensures var s1 := SubmitVia(s, fv, user, hs, f);
      && Valid(s1)
      && s.nextId in s1.rows
      && s1.rows[s.nextId].status == Pending
      && s1.rows[s.nextId].distributorTxHash == None
      && s1.rows[s.nextId].distributorId == user.id.value
      && s1.rows[s.nextId].farmerEmail == fv.form.farmerEmail
      && s1.rows[s.nextId].batchId == fv.form.batchId
      && s1.rows[s.nextId] in Listed(Handle(s1, true, ListPending(fv.form.farmerEmail)))
  {
    var b := DistributorForm.RequestBody(fv.form, user.id.value, hs);
    DistributorForm.CompletedFormHasNoMissingFields(fv.form, user.id.value, hs);
    ApplyOne(s, true, Submit(b));
    var s1 := HandleSubmit(s, true, b).1;
    HandlePreservesValid(s, true, Submit(b));
    PendingListExact(s1, fv.form.farmerEmail);
  }

  lemma DecidedRowAwaits(s: Store, id: int)
    requires Valid(s)
    requires id in s.rows && s.rows[id].status == Approved && HashBlank(s.rows[id].distributorTxHash)
    ensures s.rows[id] in Listed(Handle(s, true, ListAwaitingLedger(s.rows[id].distributorId)))
  {
    AwaitingListExact(s, s.rows[id].distributorId);
  }

  /**
   * The farmer's approval of a row with a null hash puts it in its
   * distributor's awaiting-ledger list.
   */
  lemma ApprovalQueuesForLedger(s: Store, id: int, av: FarmerApprovals.View, f: Fetch)
    requires Valid(s)
    requires id in s.rows && s.rows[id].distributorTxHash == None
    ensures var s2 := ApproveVia(s, id, av, f);
      && Valid(s2)
      && id in s2.rows
      && s2.rows[id].status == Approved
      && s2.rows[id].farmerEmail == s.rows[id].farmerEmail
      && s2.rows[id] in Listed(Handle(s2, true, ListAwaitingLedger(s.rows[id].distributorId)))
  {
    assert s.rows[id].id == id;
    assert FarmerApprovals.ActionOf(FarmerApprovals.Approve) == "approve";
    assert Sent(FarmerApprovals.HandleDecision(av, s.rows[id], FarmerApprovals.Approve, f, false).0)
        == [Decide(id, "approve", None)];
    ApplyOne(s, true, Decide(id, "approve", None));
    var s2 := HandleDecide(s, true, id, "approve", None).1;
    assert ApproveVia(s, id, av, f) == s2;
    HandlePreservesValid(s, true, Decide(id, "approve", None));
    var r := s2.rows[id];
    assert r.status == Approved && r.distributorTxHash == None && r.distributorId == s.rows[id].distributorId;
    assert r.farmerEmail == s.rows[id].farmerEmail;
    DecidedRowAwaits(s2, id);
  }

  /**
   * After a mined ledger write whose confirm reaches the backend, the row
   * carries the write's hash and is no longer in any awaiting-ledger list;
   * an approved row stays in its farmer's approved list.
   */
  lemma MinedWriteLeavesQueue(s: Store, id: int, bv: ApprovedBatches.View, h: string, f: Fetch)
    requires Valid(s)
    requires id in s.rows
    requires !SqlEq(h, "")
    ensures var s3 := ConfirmVia(s, id, bv, h, f);
      && id in s3.rows
      && s3.rows[id].distributorTxHash == Some(h)
      && (forall d :: forall x :: x in Listed(Handle(s3, true, ListAwaitingLedger(d))) ==> x.id != id)
      && (s.rows[id].status == Approved ==> s3.rows[id] in Listed(Handle(s3, true, ListApproved(s.rows[id].farmerEmail))))
  {
    ApplyOne(s, true, ConfirmLedger(id, Some(h)));
    var s3 := HandleConfirm(s, true, id, Some(h)).1;
    forall d
      ensures forall x :: x in Listed(Handle(s3, true, ListAwaitingLedger(d))) ==> x.id != id
    {
      ConfirmLeavesQueue(s, id, h, d);
    }
    HandlePreservesValid(s, true, ConfirmLedger(id, Some(h)));
    ApprovedListExact(s3, s.rows[id].farmerEmail);
  }

  /** No step in `steps` decides or confirms row `id`, whatever the step's database outcome. */
  predicate Untouched(steps: seq<Step>, id: int) {
    forall i :: 0 <= i < |steps| ==>
      !(steps[i].req.ConfirmLedger? && steps[i].req.approvalId == id) && !(steps[i].req.Decide? && steps[i].req.approvalId == id)
  }

  /**
   * Requests that neither decide nor confirm a row leave it exactly as it
   * was, whichever of their database calls succeed or fail.
   */
  lemma {:induction false} UntouchedRowKept(s: Store, steps: seq<Step>, id: int)
    requires Valid(s) && id in s.rows && Untouched(steps, id)
    ensures Valid(Run(s, steps))
    ensures id in Run(s, steps).rows && Run(s, steps).rows[id] == s.rows[id]
    decreases |steps|
  {
    if steps != [] {
      HandlePreservesValid(s, steps[0].up, steps[0].req);
      var s' := Handle(s, steps[0].up, steps[0].req).1;
      assert id in s'.rows && s'.rows[id] == s.rows[id];
      assert Untouched(steps[1..], id) by {
        forall i | 0 <= i < |steps[1..]|
          ensures !(steps[1..][i].req.ConfirmLedger? && steps[1..][i].req.approvalId == id)
          ensures !(steps[1..][i].req.Decide? && steps[1..][i].req.approvalId == id)
        {
          assert steps[1..][i] == steps[i + 1];
        }
      }
      UntouchedRowKept(s', steps[1..], id);
    }
  }

  /**
   * The awaiting-ledger list is the retry queue: an approved row with no
   * ledger hash, which is in its distributor's list, stays in it through
   * any requests (submissions, listings, decisions and confirms of other
   * rows, each succeeding or failing on its own) until its own confirm or
   * decision arrives.
   */
  lemma UnconfirmedRowStaysQueued(s: Store, steps: seq<Step>, id: int)
    requires Valid(s)
    requires id in s.rows && s.rows[id].status == Approved && HashBlank(s.rows[id].distributorTxHash)
    requires Untouched(steps, id)
    ensures var x := s.rows[id];
      x in Listed(Handle(Run(s, steps), true, ListAwaitingLedger(x.distributorId)))
  {
    var x := s.rows[id];
    UntouchedRowKept(s, steps, id);
    AwaitingListExact(Run(s, steps), x.distributorId);
  }

  /**
   * In particular, pressing submit without a wallet, or with a ledger write
   * that fails, leaves the row in its distributor's awaiting-ledger list.
   */
  lemma FailedWriteStaysQueued(s: Store, up: bool, v: ApprovedBatches.View, x: Record,
                               wallet: bool, ledger: Ledger, f: Fetch, cb: bool)
    requires Valid(s)
    requires x in Listed(Handle(s, true, ListAwaitingLedger(x.distributorId)))
    requires !wallet || ledger.Failed?
    ensures var s' := Apply(s, up, Sent(ApprovedBatches.SubmitToBlockchain(v, x, wallet, ledger, f, cb).0));
      x in Listed(Handle(s', true, ListAwaitingLedger(x.distributorId)))
  {
    NoLedgerWriteNoBookkeeping(s, up, v, x, wallet, ledger, f, cb);
  }

  /**
   * The whole handover, driven by the three components, each with its own
   * fetch outcome: the form's submission creates a pending row for the
   * farmer; the farmer's approval moves it to the distributor's
   * awaiting-ledger list; the confirm of the mined ledger write takes it out
   * of that list and leaves it in the farmer's approved list carrying the
   * ledger hash.
   */
  lemma HandoverLifecycle(s: Store, fv: DistributorForm.View, user: User, hs: Option<int>, f1: Fetch,
                          av: FarmerApprovals.View, f2: Fetch, bv: ApprovedBatches.View, h: string, f3: Fetch)
    requires Valid(s) && Js.TruthyInt(user.id)
    requires DistributorForm.Completed(fv.form) && hs.Some?
    requires !SqlEq(h, "")
    ensures var s1 := SubmitVia(s, fv, user, hs, f1);
      && s.nextId in s1.rows
      && s1.rows[s.nextId] in Listed(Handle(s1, true, ListPending(fv.form.farmerEmail)))
    ensures var s1 := SubmitVia(s, fv, user, hs, f1);
      s.nextId in s1.rows &&
      var s2 := ApproveVia(s1, s.nextId, av, f2);
      && s.nextId in s2.rows
      && s2.rows[s.nextId] in Listed(Handle(s2, true, ListAwaitingLedger(user.id.value)))
    ensures var s1 := SubmitVia(s, fv, user, hs, f1);
      s.nextId in s1.rows &&
      var s2 := ApproveVia(s1, s.nextId, av, f2);
      s.nextId in s2.rows &&
      var s3 := ConfirmVia(s2, s.nextId, bv, h, f3);
      && s.nextId in s3.rows
      && s3.rows[s.nextId].distributorTxHash == Some(h)
      && (forall x :: x in Listed(Handle(s3, true, ListAwaitingLedger(user.id.value))) ==> x.id != s.nextId)
      && s3.rows[s.nextId] in Listed(Handle(s3, true, ListApproved(fv.form.farmerEmail)))
  {
    var id := s.nextId;
    FormSubmissionIsPending(s, fv, user, hs, f1);
    var s1 := SubmitVia(s, fv, user, hs, f1);
    ApprovalQueuesForLedger(s1, id, av, f2);
    var s2 := ApproveVia(s1, id, av, f2);
    assert Valid(s2);
    MinedWriteLeavesQueue(s2, id, bv, h, f3);
  }

  /** No status guard on decisions: an approved row can afterwards be rejected. */
  lemma ApprovedCanBeRejected(s: Store, id: int)
    requires id in s.rows
    ensures var s1 := HandleDecide(s, true, id, "approve", None).1;
      var s2 := HandleDecide(s1, true, id, "reject", None).1;
      && s1.rows[id].status == Approved
      && s2.rows[id].status == Rejected
      && HandleDecide(s1, true, id, "reject", None).0 == Decided(Rejected)
  {
  }

  /** No status guard on confirmation: a rejected row accepts a ledger hash, and the reply is success. */
  lemma RejectedRowTakesHash(s: Store, id: int, h: string)
    requires id in s.rows && s.rows[id].status == Rejected
    ensures HandleConfirm(s, true, id, Some(h)).0 == Confirmed
    ensures HandleConfirm(s, true, id, Some(h)).1.rows[id].distributorTxHash == Some(h)
    ensures HandleConfirm(s, true, id, Some(h)).1.rows[id].status == Rejected
  {
  }

  /** A second confirmation overwrites the first hash instead of keeping it. */
  lemma SecondConfirmOverwrites(s: Store, id: int, h1: string, h2: string)
    requires id in s.rows
    ensures HandleConfirm(HandleConfirm(s, true, id, Some(h1)).1, true, id, Some(h2)).1.rows[id].distributorTxHash == Some(h2)
  {
  }

  /**
   * No duplicate check: submitting the same proposal twice yields two
   * distinct pending rows for the same batch and distributor, both listed.
   */
  lemma DuplicateSubmissionsBothPending(s: Store, b: SubmitBody)
    requires Valid(s)
    requires HandleSubmit(s, true, b).0.Submitted?
    ensures var s1 := HandleSubmit(s, true, b).1;
      var s2 := HandleSubmit(s1, true, b).1;
      var l := Listed(Handle(s2, true, ListPending(b.farmerEmail.value)));
      && HandleSubmit(s1, true, b).0.Submitted?
      && s.nextId != s1.nextId
      && s2.rows[s.nextId].batchId == s2.rows[s1.nextId].batchId
      && s2.rows[s.nextId].distributorId == s2.rows[s1.nextId].distributorId
      && s2.rows[s.nextId] in l && s2.rows[s1.nextId] in l
  {
    var s1 := HandleSubmit(s, true, b).1;
    var s2 := HandleSubmit(s1, true, b).1;
    HandlePreservesValid(s, true, Submit(b));
    HandlePreservesValid(s1, true, Submit(b));
    PendingListExact(s2, b.farmerEmail.value);
  }
}

=== FILE: wrappers.dfy ===
/** Optional values: the model's stand-in for JavaScript's null/undefined and SQL's NULL. */
module Wrappers {

  datatype Option<+T> = None | Some(value: T) {

    /** The wrapped value, or `default` when there is none. */
    function GetOr(default: T): (r: T)
      ensures Some? ==> r == value
      ensures None? ==> r == default
    {
      match this
      case Some(v) => v
      case None => default
    }
  }
}
